=== FILE: README.md ===
# Clinic booking core, modelled in Dafny

A model of the appointment-scheduling core of a single-doctor clinic's web
app. It covers two pages.

- **Booking page.** A patient picks a consultation type (WhatsApp video or
  in-person), one of the next seven days and a time slot. They enter a name and
  phone and confirm. The page derives the day's slot catalog and marks the
  slots already booked. It appends the booking to a durable booking store and
  enqueues a pending notification with a prerendered WhatsApp link.
- **Admin panel.** The doctor consumes pending notifications by position and
  sees derived views: recent bookings, today's schedule, all appointments and
  four dashboard counters. Only the recent, today and all lists drop records
  without a name (all three also those without a date). Only
  the today and all views rebuild the contact link from the stored phone; the
  recent list shows no link and the pending list uses the stored one. The
  total, pending and today counters count the raw store, queue and today's
  records; the this-week counter counts the records whose date parses to a
  day on or after a week ago, named or not.

The files, one module each:

| file | module | what it holds |
|---|---|---|
| `records.dfy` | `Records` | booking, notification, slot, consultation type |
| `text.dfy` | `Text` | `\D` digit strip, `includes`, `split(':')[0]`, decimal `parseInt` |
| `sequences.dfy` | `Sequences` | `filter`, `slice(0, n)`, a stable sort driven by a JavaScript-style comparator |
| `catalog.dfy` | `Catalog` | the slot catalog per type and weekday, its label format and order, the morning/evening split |
| `availability.dfy` | `Availability` | `isSlotBooked`, `getAvailableSlots`, `getSlotsCount` |
| `booking.dfy` | `BookingPage` | `saveBooking` with `sendNotifications`, the step machine, the seven-day date strip |
| `admin.dfy` | `AdminPanel` | `markNotificationSent`, contact link, record filters, views, dashboard |
| `lifecycle.dfy` | `Lifecycle` | runs of saves and consumes, and end-to-end scenarios |

Environment inputs are parameters:

- the clock (`now`, today's epoch day, `weekAgo`);
- the engine's `new Date` parsing (`parseTime`, `parseDate`, returning `None` for an invalid date);
- `isToday`;
- whether a storage write throws (`writeFails`).

A selected date is its `yyyy-MM-dd` key together with its weekday. The date
strip works on epoch-day ordinals, where `getDay` is `(day + 4) % 7`.

Absent string fields of a stored record are modelled as `""`. Every read of
them goes through `x || ''` or a truthiness test, so absent and empty behave
alike. A missing timestamp is `None`.

### What the code does not do

- **`saveBooking` has no commit-time re-check and no rollback.**
  - The only conflict check is in `handleContinue` on the datetime step. It
    runs against the page's in-memory list (loaded on mount, extended by its
    own saves).
  - A storage write that throws after the page's list was extended leaves
    the booking without a notification, and the call reports failure.
  - Confirmation, then Back, then Continue saves the same slot a second time
    (`BookingPage.DoubleBookingThroughBack`).
- **Enqueue stores the bare prefix.** A phone with no digits enqueues the
  link `https://wa.me/91`. Only the today and all views turn that case into
  `"#"` and the "no phone number" notice. The pending list still uses the
  stored link.
- **Noon counts as evening.** The morning/evening split reads `12:xx PM` as
  hour 12 ≥ 6, so the four `12:xx PM` in-person slots show under "Evening".
  The `01:xx PM` slots show under "Morning".

## Model

| member | source | states |
|---|---|---|
| Text.DigitsOnly | src/pages/Booking.tsx:197 | the `\D` strip keeps exactly the digits of the phone, and nothing else, in a string no longer than the input |
| Text.DigitsOnlyConcat | src/pages/Booking.tsx:197 | stripping distributes over concatenation |
| Text.DigitsOnlyFixpoint | src/pages/Admin.tsx:408 | a phone is unchanged by the strip exactly when it is all digits; hence the strip is idempotent |
| Text.Contains | src/pages/Booking.tsx:260 | `includes` never finds a pattern longer than the text; its use in the AM/PM split is pinned by Catalog.WellFormedReading |
| Text.FirstField | src/pages/Booking.tsx:259 | `split(':')[0]` is the longest colon-free prefix, ending just before the first colon if there is one |
| Text.LeadingDigits | src/pages/Booking.tsx:259 | the digits `parseInt` reads are the longest digit prefix |
| Text.ParseLeadingInt | src/pages/Booking.tsx:259 | `parseInt` yields NaN exactly when the text is empty or does not start with a digit |
| Sequences.Filter | src/pages/Admin.tsx:291 | `filter` keeps, in a list no longer than the input, exactly the entries that pass the predicate |
| Sequences.FilterAppend | src/pages/Admin.tsx:291 | filtering distributes over concatenation, so it keeps store order |
| Sequences.FilterKeepsAll | src/pages/Booking.tsx:216 | filtering returns the input unchanged exactly when every entry passes |
| Sequences.Take | src/pages/Admin.tsx:293 | `slice(0, n)` returns the first min(n, length) entries, in order, drawn from the input |
| Sequences.Insert | src/pages/Admin.tsx:292 | inserting into a list adds exactly that element, as a permutation |
| Sequences.SortWith | src/pages/Admin.tsx:292 | the sort is a permutation of its input, whatever the comparator |
| Sequences.InsertSorted | src/pages/Admin.tsx:396-405 | inserting into a sorted list with a comparator that agrees with a key keeps it sorted |
| Sequences.SortWithSorted | src/pages/Admin.tsx:483-492 | with a comparator that agrees with an integer key on the input, the sort's output is ordered by that key |
| Sequences.SortWithMembers | src/pages/Admin.tsx:292 | the sort neither adds nor drops an entry |
| Catalog.Labels | src/pages/Booking.tsx:72-93 | each catalog entry renders as its `hh:mm AM/PM` label, in order |
| Catalog.CandidateSlots | src/pages/Booking.tsx:65-126 | video lists 20 slots on every day; in-person lists none on Sunday, 8 on Saturday and 14 on other days |
| Catalog.ChronologicalStrict | src/pages/Booking.tsx:72-124 | in a chronological list an earlier label is strictly earlier in the day |
| Catalog.ChronologicalDistinct | src/pages/Booking.tsx:72-124 | a chronological list has no repeated label |
| Catalog.FormatReading | src/pages/Booking.tsx:72-124 | a rendered entry is a well-formed label whose hour, AM/PM marker and minute of day read back as the entry's |
| Catalog.LabelsChronological | src/pages/Booking.tsx:72-124 | entries in increasing clock order render as labels in increasing time of day |
| Catalog.ClockChronologicalAppend | src/pages/Booking.tsx:109-124 | two ordered blocks where the first ends before the second starts join into one ordered block |
| Catalog.LabelsAppend | src/pages/Booking.tsx:109-124 | rendering distributes over joining blocks |
| Catalog.BlocksChronological | src/pages/Booking.tsx:72-124 | each of the four catalog blocks is in strictly increasing clock order |
| Catalog.CatalogChronological | src/pages/Booking.tsx:65-126 | every day's list, for either type, is well-formed, strictly increasing in time of day, and without repeats |
| Catalog.CandidateTimesChronological | src/pages/Booking.tsx:65-126 | every day's entry list is in strictly increasing clock order |
| Catalog.ClockLabelsDistinct | src/pages/Booking.tsx:72-124 | an ordered entry list renders as a chronological label list without repeats |
| Catalog.LabelMinutes | src/pages/Booking.tsx:72-124 | a rendered label's minute of day is its entry's |
| Catalog.VideoBlockMinutes | src/pages/Booking.tsx:72-93 | video entries are half-hourly from 09:00 and from 14:00 |
| Catalog.InPersonBlockMinutes | src/pages/Booking.tsx:109-124 | in-person entries are quarter-hourly from 12:00 and from 19:30 |
| Catalog.VideoSchedule | src/pages/Booking.tsx:71-93 | the video list is six half-hourly morning labels from 09:00 AM, then fourteen half-hourly labels from 02:00 PM |
| Catalog.InPersonSchedule | src/pages/Booking.tsx:94-125 | in-person is closed on Sunday; Saturday is eight quarter-hours from noon; other days add six quarter-hours from 07:30 PM after the Saturday list |
| Catalog.VideoMorningLabels | src/pages/Booking.tsx:73-78 | the video morning block reads "09:00 AM" to "11:30 AM", half-hourly, as written |
| Catalog.VideoAfternoonLabels | src/pages/Booking.tsx:79-92 | the video afternoon block reads "02:00 PM" to "08:30 PM", half-hourly, as written |
| Catalog.MiddayLabels | src/pages/Booking.tsx:99-106 | the in-person midday block reads "12:00 PM" to "01:45 PM", quarter-hourly, as written |
| Catalog.EveningLabels | src/pages/Booking.tsx:118-123 | the in-person evening block reads "07:30 PM" to "08:45 PM", quarter-hourly, as written |
| Catalog.VideoLabelTexts | src/pages/Booking.tsx:71-93 | on every weekday the video list is exactly the twenty labels the page writes, in order |
| Catalog.InPersonLabelTexts | src/pages/Booking.tsx:94-125 | the in-person list is empty on Sunday, exactly the eight midday labels on Saturday, and those followed by the six evening labels on other days |
| Catalog.ValidBlocks | src/pages/Booking.tsx:72-124 | every catalog entry is a valid 12-hour clock reading |
| Catalog.VideoEveryDay | src/pages/Booking.tsx:71-93 | the video list is the same on every weekday, running from "09:00 AM" to "08:30 PM" |
| Catalog.DisplayHour | src/pages/Booking.tsx:259 | the hour the page reads is NaN exactly when the label is empty or does not start with a digit |
| Catalog.IsMorning | src/pages/Booking.tsx:258-262 | a label with no "AM" and no leading digit is never morning (a NaN hour compares false); on catalog labels Catalog.MorningEveningComplement and Catalog.ClockSplit state which slots are morning |
| Catalog.IsEvening | src/pages/Booking.tsx:264-268 | an evening label contains "PM" and starts with a digit; on catalog labels Catalog.MorningEveningComplement makes it the complement of morning |
| Catalog.MorningSlots | src/pages/Booking.tsx:258-262 | the morning group is exactly the slots whose label is morning |
| Catalog.EveningSlots | src/pages/Booking.tsx:264-268 | the evening group is exactly the slots whose label is evening |
| Catalog.WellFormedReading | src/pages/Booking.tsx:258-268 | on a catalog label, the hour the page parses is the written hour, and `includes('AM')`/`includes('PM')` read the marker |
| Catalog.MorningEveningComplement | src/pages/Booking.tsx:258-268 | on a catalog label, morning and evening are complementary; evening is PM with hour at least 6, so `12:xx PM` is evening |
| Catalog.MorningEveningPartition | src/pages/Booking.tsx:258-268 | the two groups split any list of catalog labels: sizes add up, and each slot is in exactly one group |
| Catalog.ClockSplit | src/pages/Booking.tsx:258-268 | an entry shows under morning exactly when it is AM or its hour is below 6 |
| Catalog.MiddaySplit | src/pages/Booking.tsx:98-107 | the in-person midday block shows its four `12:xx PM` slots under evening and its four `01:xx PM` slots under morning |
| Availability.IsSlotBooked | src/pages/Booking.tsx:56-63 | a slot is booked exactly when some stored booking has its date, time and consultation type |
| Availability.Resolve | src/pages/Booking.tsx:129-132 | flagging keeps the labels' number and order, and a slot is available exactly when no stored booking occupies it |
| Availability.AvailableSlots | src/pages/Booking.tsx:65-133 | the day's slots are the catalog labels in order, each available exactly when unoccupied |
| Availability.FreeSlots | src/pages/Booking.tsx:216 | the free slots are exactly the available ones, no more than the day has |
| Availability.SlotsCount | src/pages/Booking.tsx:214-217 | the free count never exceeds the day's catalog length, and equals it with no bookings |
| Availability.IsSlotBookedAppend | src/pages/Booking.tsx:56-63 | after appending a booking, a slot is booked exactly when it was already booked or the new booking occupies it |
| Availability.AppendElsewhereUnchanged | src/pages/Booking.tsx:58-62 | a booking of another type or another date changes no slot of (date, type) |
| Availability.OtherTypeIgnored | src/pages/Booking.tsx:61 | any number of bookings of the other consultation type leave the slot list unchanged |
| Availability.AppendMarksOnlyItsSlot | src/pages/Booking.tsx:129-132 | a new booking for (date, type) makes its own slot unavailable and leaves every other flag alone |
| Availability.FreeCountAfterAppend | src/pages/Booking.tsx:214-217 | over distinct labels, one appended booking lowers the free count by one if it takes a free listed slot, and otherwise not at all |
| Availability.SlotsCountAfterAppend | src/pages/Booking.tsx:214-217 | a new booking lowers its own day's free count by exactly one when it takes a free slot; otherwise, and for every other type or date, the count is unchanged; the count never rises |
| Availability.DaySplitPartition | src/pages/Booking.tsx:258-268 | every day's slots split into the morning and evening groups, each slot in exactly one |
| BookingPage.EnqueueLink | src/pages/Booking.tsx:197 | the stored link is the `https://wa.me/91` prefix followed by the phone's digits, in order and nothing else; a phone without digits leaves the bare prefix |
| BookingPage.EnqueueLinkDeterminedByDigits | src/pages/Booking.tsx:197 | two phones get the same stored link exactly when they carry the same digits |
| BookingPage.NotificationFor | src/pages/Booking.tsx:193-198 | the notification copies every booking field and adds the stored link |
| BookingPage.SaveBooking | src/pages/Booking.tsx:136-158 | a save reports success exactly when no storage write throws |
| BookingPage.SaveAppends | src/pages/Booking.tsx:144-149 | a save appends the booking at the end of the list, keeping the rest; a successful one appends its notification at the end of the queue |
| BookingPage.SaveDoesNotRecheck | src/pages/Booking.tsx:136-158 | saving onto an occupied slot still succeeds and leaves two bookings for that slot |
| BookingPage.FailedSaveKeepsBooking | src/pages/Booking.tsx:144-156 | a failed notification write leaves the booking stored with no notification for it |
| BookingPage.Start | src/pages/Booking.tsx:30-39 | the page opens on the datetime step for the given type and today's date, with no time selected, empty contact fields and the loaded list and queue |
| BookingPage.SelectDate | src/pages/Booking.tsx:507-510 | picking a date selects it and clears the selected time; every other field (type, step, contact, list, queue) is unchanged |
| BookingPage.SelectTime | src/pages/Booking.tsx:544 | clicking a time selects it and changes no other field |
| BookingPage.EnterContact | src/pages/Booking.tsx:395-420 | typing sets name and phone and changes no other field |
| BookingPage.TimeSelectable | src/pages/Booking.tsx:545 | an enabled time button is a listed label of the day that no loaded booking occupies |
| BookingPage.ContinueEnabled | src/pages/Booking.tsx:596-597 | Continue is never enabled on confirmation, and on the datetime step exactly when a time is selected |
| BookingPage.PendingBooking | src/pages/Booking.tsx:230-237 | the submitted booking occupies the selected slot and carries the entered name, phone and the clock value |
| BookingPage.Continue | src/pages/Booking.tsx:219-246 | on the datetime step an occupied slot clears the time and stays, a free one moves to contact, and neither touches the list, queue, name or phone; on contact the booking is saved with no re-check, keeping time, name and phone, and moving on exactly when the save succeeds; otherwise nothing changes |
| BookingPage.Back | src/pages/Booking.tsx:248-256 | contact goes back to datetime, confirmation back to contact, all selections kept |
| BookingPage.SelectableIffRecheckPasses | src/pages/Booking.tsx:220-227 | for a listed time, its button is enabled exactly when Continue's re-check then lets the flow move on |
| BookingPage.DisabledContinueIsInert | src/pages/Booking.tsx:219-246 | outside the contact step, a Continue the page disables changes nothing |
| BookingPage.ContinueBackRoundTrip | src/pages/Booking.tsx:219-256 | Continue onto a free slot and then Back returns exactly to the earlier state |
| BookingPage.ContactNeedsFreeSlot | src/pages/Booking.tsx:220-227 | Continue enters the contact step only with a selected time that no loaded booking occupies (Back from confirmation also enters it, with the slot taken) |
| BookingPage.ConfirmationRecordsBooking | src/pages/Booking.tsx:228-241 | reaching confirmation appends one booking for the selected slot and one notification with the phone's link |
| BookingPage.DoubleBookingThroughBack | src/pages/Booking.tsx:228-256 | confirm, Back, Continue saves the same slot twice |
| BookingPage.WeekdayOf | src/pages/Booking.tsx:66 | a weekday is a number from 0 (Sunday) to 6 |
| BookingPage.WeekdayShift | src/pages/Booking.tsx:50-53 | a day `i` days later has its weekday advanced by `i`, wrapping after Saturday |
| BookingPage.AvailableDates | src/pages/Booking.tsx:50-53 | the strip is today and the six following days, in order |
| BookingPage.DateStripCoversWeek | src/pages/Booking.tsx:50-53 | the strip shows every weekday exactly once |
| BookingPage.OneClosedDayInStrip | src/pages/Booking.tsx:50-53 | with no bookings, an in-person day in the strip shows no slots exactly when it is Sunday; a video day always shows 20 |
| AdminPanel.MarkSent | src/pages/Admin.tsx:100-104 | consuming an in-range index removes exactly that entry; an out-of-range index changes nothing |
| AdminPanel.MarkSentRemovesOne | src/pages/Admin.tsx:100-104 | consuming shortens the queue by one, keeps earlier entries in place and shifts later ones down, removing exactly the consumed one |
| AdminPanel.ContactLink | src/pages/Admin.tsx:407-409 | the view's link is `"#"` exactly when the phone has no digits, and the stored-link form otherwise |
| AdminPanel.ContactFor | src/pages/Admin.tsx:435-459 | the views show the no-phone notice exactly when the phone has no digits, otherwise the buttons with a digits-only link |
| AdminPanel.ViewLinkVersusStoredLink | src/pages/Admin.tsx:494-533 | the views' link equals the stored one when the phone has digits; otherwise the views show the notice while the stored link is the bare prefix |
| AdminPanel.ValidBookings | src/pages/Admin.tsx:291 | the malformed-record filter keeps exactly the stored records with a name and a date |
| AdminPanel.NewerFirst | src/pages/Admin.tsx:292 | the recency comparator puts `a` no later than `b` exactly when `a` is at least as new, and agrees with the negated timestamp |
| Records.TimestampOrZero | src/pages/Admin.tsx:292 | a missing timestamp reads as 0, a present one as itself |
| AdminPanel.RecentBookings | src/pages/Admin.tsx:290-293 | recent bookings are distinct well-formed stored records (a sub-multiset of them), newest first, at most five, exactly five when five exist, and all of them when there are at most five |
| AdminPanel.NewestFirstShown | src/pages/Admin.tsx:290-293 | the first five of the sorted well-formed records are stored, well-formed, newest first and a sub-multiset of the well-formed records |
| AdminPanel.RecentAreNewest | src/pages/Admin.tsx:290-293 | no well-formed record newer than the fifth shown is left out |
| AdminPanel.TodayAppointments | src/pages/Admin.tsx:106-112 | today's records are exactly the stored records with a date that the clock calls today |
| AdminPanel.ParsedOrder | src/pages/Admin.tsx:396-405 | the view comparator is 0 when either key fails to parse, and otherwise orders as the parsed keys |
| AdminPanel.TimeOrMidnight | src/pages/Admin.tsx:398-399 | the time the today view parses is never empty, is the stored time when there is one and "00:00" otherwise |
| AdminPanel.TimeKey | src/pages/Admin.tsx:398-399 | the today view's sort key depends only on a record's time, and a missing time parses as "00:00" |
| AdminPanel.DateKey | src/pages/Admin.tsx:485-486 | the all view's sort key depends only on a record's date |
| AdminPanel.ParsedOrderAgrees | src/pages/Admin.tsx:396-405 | where every key parses, the view comparator orders as the parsed keys do |
| AdminPanel.TodayView | src/pages/Admin.tsx:394-405 | the today view is a permutation of today's named records |
| AdminPanel.TodayViewEntries | src/pages/Admin.tsx:394-395 | every entry of the today view is stored, dated today and named |
| AdminPanel.TodayViewSorted | src/pages/Admin.tsx:394-405 | when the time of every named record dated today parses, the today view is in time-of-day order; other records are filtered out before comparing |
| AdminPanel.AllView | src/pages/Admin.tsx:481-492 | the all view is a permutation of the well-formed records |
| AdminPanel.AllViewEntries | src/pages/Admin.tsx:481-482 | the all view lists exactly the stored records with a name and a date |
| AdminPanel.AllViewSorted | src/pages/Admin.tsx:482-492 | when the date of every record with a name and a date parses, the all view is in date order; malformed records are filtered out before sorting |
| AdminPanel.ValidBookingsOrder | src/pages/Admin.tsx:291 | the malformed-record filter keeps store order and keeps a store of well-formed records whole |
| AdminPanel.SinceWeekAgo | src/pages/Admin.tsx:228-239 | the this-week counter never counts a record whose date is missing or does not parse; AdminPanel.Dashboard bounds the count by the total |
| AdminPanel.Dashboard | src/pages/Admin.tsx:193-239 | total is the store length and pending the queue length; the today and this-week counters never exceed the total |
| AdminPanel.TodayCounterVersusList | src/pages/Admin.tsx:382-395 | the Today counter is at least the length of the today list, equal exactly when every record of today has a name |
| AdminPanel.FilterSameLength | src/pages/Admin.tsx:395 | a filter that drops nothing returns its input |
| Lifecycle.StoreOnlyGrows | src/pages/Booking.tsx:144-146 | over any run of saves and consumes, the store grows by one per save and keeps its earlier entries as a prefix |
| Lifecycle.QueueAccounting | src/pages/Admin.tsx:100-104 | over any run, the queue gains one entry per successful save and loses at most one per consume |
| Lifecycle.PendingWithinTotal | src/pages/Admin.tsx:198-208 | the pending counter never comes to exceed the total counter |
| Lifecycle.OtherTypeNeverBlocks | src/pages/Booking.tsx:56-63 | with only bookings of the other type stored, Continue always reaches the contact step |
| Lifecycle.SpacedGroupsLink | src/pages/Booking.tsx:197 | a phone written as two digit groups around a space stores the groups joined after the prefix |
| Lifecycle.SpacedPhoneLink | src/pages/Booking.tsx:197 | "98765 43210" stores the link "https://wa.me/919876543210" |
| Lifecycle.FirstBookingScenario | src/pages/Booking.tsx:219-246 | one patient booking 10:00 AM video into empty collections reaches confirmation with one booking and one notification carrying the phone's ten digits |
| Lifecycle.FirstBookingTakesOneSlot | src/pages/Booking.tsx:214-217 | that booking leaves 19 of the day's 20 video slots free |
| Lifecycle.TenIsVideoSlot | src/pages/Booking.tsx:75 | "10:00 AM" is a video slot on every day |
| Lifecycle.NoDigitPhoneScenario | src/pages/Booking.tsx:197 | a non-empty phone without digits, which the form accepts, still enqueues a notification, with the bare prefix as its link, while the admin views show the no-phone notice |

## Left out

- Persistence: `localStorage` and JSON round-tripping are not modelled.
  - The store and queue are sequences.
  - The page's in-memory booking list is the same sequence as the durable store. This also means the cross-tab race (two pages whose lists loaded at different times) is not modelled.
  - Null or non-object entries in the stored arrays are not modelled, since records are always well-typed here.
- Asynchrony: the 1.5-second `setTimeout`, the `isLoading` flag and `await` are left out. A save is one atomic step whose outcome is the `writeFails` input.
- Dates and times: `date-fns` (`format`, `addDays`, `getDay`, `isToday`, `isTomorrow`) and `new Date(...)` parsing are engine- and time-zone-dependent. They become parameters (`isToday`, `parseTime`, `parseDate`, the weekday of the selected date, `weekAgo`). The date labels (`getDateLabel`) are left out.
- Message text: the patient message, the doctor e-mail text, the `?text=` query with `encodeURIComponent`, the clipboard copy, `alert` and navigation are presentation.
- The admin login, the `adminLoggedIn` flag and the page layout are not part of this model.
- `parseInt` is modelled only as far as the catalog labels exercise it: leading digits in radix 10, NaN otherwise. Leading whitespace, a sign and `0x` prefixes are not modelled.
- Sequences.SortWith: stated only as a permutation, and as sorted when the comparator agrees with an integer key. The stability and the exact order that the JavaScript engine's sort gives under a comparator returning 0 for unparseable keys are not stated, because that order is engine-defined.
- AdminPanel.MarkSent: the index is an integer. A fractional index (which would match no position) is not modelled.
- BookingPage.Back: on the datetime step the page navigates to the home page. The flow state does not record that, and the model leaves the state unchanged.
- `src/components/*`, `src/App.tsx` and `src/pages/Home.tsx` (routing, marketing content) are not part of this model.

=== FILE: admin.dfy ===
/**
 The admin panel's logic: consuming a pending notification by its position,
 deriving the WhatsApp contact link from a stored phone, filtering out
 malformed records, and the derived views (recent bookings, today's schedule,
 all appointments) and dashboard counters. Date/time parsing and "is today"
 are engine- and clock-dependent and enter as function parameters.
 */
module AdminPanel {
  import opened Records
  import opened Text
  import opened Sequences
  import opened BookingPage

  // ---------------------------------------------------------------------------
  // Pending queue

  /** `markNotificationSent(index)`: `queue.filter((_, i) => i !== index)`. */
  function MarkSent(queue: seq<Notification>, index: int): (r: seq<Notification>)
    ensures 0 <= index < |queue| ==> r == queue[..index] + queue[index + 1..]
    ensures !(0 <= index < |queue|) ==> r == queue
  {
    if queue == [] then []
    else
      (if index == 0 then [] else [queue[0]]) + MarkSent(queue[1..], index - 1)
  }

  /** Consuming an in-range index removes exactly that entry: one fewer,
      earlier entries in place, later ones shifted down by one. */
  lemma MarkSentRemovesOne(queue: seq<Notification>, index: int)
    requires 0 <= index < |queue|
    ensures |MarkSent(queue, index)| == |queue| - 1
    ensures forall j :: 0 <= j < index ==> MarkSent(queue, index)[j] == queue[j]
    ensures forall j :: index <= j < |queue| - 1 ==> MarkSent(queue, index)[j] == queue[j + 1]
    ensures multiset(MarkSent(queue, index)) + multiset{queue[index]} == multiset(queue)
  {
    var r := MarkSent(queue, index);
    var front, back := queue[..index], queue[index + 1..];
    assert r == front + back;
    assert queue == front + [queue[index]] + back;
    forall j | index <= j < |queue| - 1
      ensures r[j] == queue[j + 1]
    {
      assert r[j] == back[j - index];
    }
  }

  // ---------------------------------------------------------------------------
  // Contact link

  /** The link the today and all views derive: prefix plus digits, or "#"
      when the phone has no digits. */
  function ContactLink(phone: string): (r: string)
    ensures r == "#" <==> DigitsOnly(phone) == []
    ensures r != "#" ==> r == EnqueueLink(phone)
  {
    var clean := DigitsOnly(phone);
    if clean != [] then WhatsappPrefix + clean else "#"
  }

  /** What the views render for a phone: the WhatsApp buttons with the link,
      or the "no phone number" notice. */
  datatype ContactAction = CallButtons(link: string) | NoPhoneNotice

  function ContactFor(phone: string): (a: ContactAction)
    ensures a.NoPhoneNotice? <==> DigitsOnly(phone) == []
    ensures a.CallButtons? ==> a.link == ContactLink(phone) && AllDigits(a.link[|WhatsappPrefix|..])
  {
    if DigitsOnly(phone) != [] then CallButtons(ContactLink(phone)) else NoPhoneNotice
  }

  /** The admin views and the stored notification agree on the link when the
      phone has digits; when it has none the views show the notice while the
      stored notification keeps the bare prefix, which the pending list still
      uses as its send link. */
  lemma ViewLinkVersusStoredLink(b: Booking)
    ensures DigitsOnly(b.patientPhone) != [] ==>
      ContactFor(b.patientPhone) == CallButtons(NotificationFor(b).whatsappLink)
    ensures DigitsOnly(b.patientPhone) == [] ==>
      ContactFor(b.patientPhone) == NoPhoneNotice && NotificationFor(b).whatsappLink == WhatsappPrefix
  {
  }

  // ---------------------------------------------------------------------------
  // Derived views

  /** A record the views may show: it has a patient name and a date. */
  predicate Listable(b: Booking)
  {
    b.patientName != "" && b.date != ""
  }

  predicate HasName(b: Booking)
  {
    b.patientName != ""
  }

  /** The recent and all views' malformed-record filter. */
  function ValidBookings(store: seq<Booking>): (r: seq<Booking>)
    ensures |r| <= |store|
    ensures forall i :: 0 <= i < |r| ==> Listable(r[i]) && r[i] in store
    ensures forall i :: 0 <= i < |store| && Listable(store[i]) ==> store[i] in r
  {
    Filter(store, Listable)
  }

  /** The recency comparator `(b.timestamp || 0) - (a.timestamp || 0)`. */
  function NewerFirst(a: Booking, b: Booking): (d: int)
    ensures d <= 0 <==> TimestampOrZero(a) >= TimestampOrZero(b)
    ensures d == NegatedTimestamp(a) - NegatedTimestamp(b)
  {
    TimestampOrZero(b) - TimestampOrZero(a)
  }

  function NegatedTimestamp(b: Booking): int
  {
    -TimestampOrZero(b)
  }

  /** "Recent bookings": the well-formed records, newest first (a missing
      timestamp counts as 0), at most five. */
  function RecentBookings(store: seq<Booking>): (r: seq<Booking>)
    ensures |r| == if |ValidBookings(store)| <= 5 then |ValidBookings(store)| else 5
    ensures forall i :: 0 <= i < |r| ==> Listable(r[i]) && r[i] in store
    ensures forall i, j :: 0 <= i < j < |r| ==> TimestampOrZero(r[i]) >= TimestampOrZero(r[j])
    ensures multiset(r) <= multiset(ValidBookings(store))
    ensures |ValidBookings(store)| <= 5 ==> multiset(r) == multiset(ValidBookings(store))
  {
    NewestFirstShown(store);
    Take(SortWith(ValidBookings(store), NewerFirst), 5)
  }

  /** The facts behind `RecentBookings`, about the first five of the
      well-formed records sorted newest first. */
  lemma NewestFirstShown(store: seq<Booking>)
    ensures var valid := ValidBookings(store);
      var shown := Take(SortWith(valid, NewerFirst), 5);
      && (forall i :: 0 <= i < |shown| ==> Listable(shown[i]) && shown[i] in store)
      && (forall i, j :: 0 <= i < j < |shown| ==> TimestampOrZero(shown[i]) >= TimestampOrZero(shown[j]))
      && multiset(shown) <= multiset(valid)
      && (|valid| <= 5 ==> multiset(shown) == multiset(valid))
  {
    var valid := ValidBookings(store);
    var sorted := SortWith(valid, NewerFirst);
    var shown := Take(sorted, 5);
    SortWithSorted(valid, NewerFirst, NegatedTimestamp);
    SortWithMembers(valid, NewerFirst);
    forall i | 0 <= i < |shown|
      ensures Listable(shown[i]) && shown[i] in store
    {
      assert shown[i] == sorted[i];
      assert sorted[i] in valid;
      FilterMembers(store, Listable);
    }
  }

  /** Nothing newer is left out: once five records are shown, every
      well-formed record strictly newer than the fifth is among them. */
  lemma RecentAreNewest(store: seq<Booking>, b: Booking)
    requires b in store && Listable(b)
    requires |RecentBookings(store)| == 5
    requires TimestampOrZero(b) > TimestampOrZero(RecentBookings(store)[4])
    ensures b in RecentBookings(store)
  {
    var valid := ValidBookings(store);
    var sorted := SortWith(valid, NewerFirst);
    SortWithSorted(valid, NewerFirst, NegatedTimestamp);
    SortWithMembers(valid, NewerFirst);
    var i :| 0 <= i < |store| && store[i] == b;
    assert b in valid;
    var k :| 0 <= k < |sorted| && sorted[k] == b;
    assert RecentBookings(store)[k] == b;
  }

  /** `todayAppointments`: records with a date that the clock calls today. */
  function TodayAppointments(store: seq<Booking>, isToday: string -> bool): (r: seq<Booking>)
    ensures forall i :: 0 <= i < |r| ==> r[i].date != "" && isToday(r[i].date) && r[i] in store
    ensures forall i :: 0 <= i < |store| && store[i].date != "" && isToday(store[i].date) ==> store[i] in r
  {
    Filter(store, (b: Booking) => b.date != "" && isToday(b.date))
  }

  /** The comparator of the today and all views over a parsed key: the
      difference of the two keys, or 0 when either fails to parse. */
  function ParsedOrder(key: Booking -> Option<int>): (cmp: (Booking, Booking) -> int)
    ensures forall a: Booking, b: Booking :: key(a).None? || key(b).None? ==> cmp(a, b) == 0
    ensures forall a: Booking, b: Booking :: key(a).Some? && key(b).Some? ==>
      (cmp(a, b) <= 0 <==> key(a).value <= key(b).value)
  {
    (a: Booking, b: Booking) =>
      if key(a).Some? && key(b).Some? then key(a).value - key(b).value else 0
  }

  /** A parsed key read as an integer, 0 standing in when it does not parse. */
  function KeyOrZero(key: Booking -> Option<int>, b: Booking): int
  {
    match key(b)
    case Some(v) => v
    case None => 0
  }

  /** Where every key parses, the comparator orders as the keys do. */
  lemma ParsedOrderAgrees(key: Booking -> Option<int>, xs: seq<Booking>)
    requires forall i :: 0 <= i < |xs| ==> key(xs[i]).Some?
    ensures AgreesOn(ParsedOrder(key), (b: Booking) => KeyOrZero(key, b), xs)
  {
  }

  /** The time string the today view parses: a missing time reads as "00:00". */
  function TimeOrMidnight(t: string): (r: string)
    ensures r != ""
    ensures t != "" ==> r == t
    ensures t == "" ==> r == "00:00"
  {
    if t == "" then "00:00" else t
  }

  /** The today view's sort key; `parseTime` stands for `new Date` on the
      time label, `None` for an invalid date. */
  function TimeKey(parseTime: string -> Option<int>): (key: Booking -> Option<int>)
    ensures forall b: Booking, c: Booking :: b.time == c.time ==> key(b) == key(c)
    ensures forall b: Booking :: b.time == "" ==> key(b) == parseTime("00:00")
  {
    assert TimeOrMidnight("") == "00:00";
    (b: Booking) => parseTime(TimeOrMidnight(b.time))
  }

  /** The all view's sort key; `parseDate` stands for `new Date` on the date key. */
  function DateKey(parseDate: string -> Option<int>): (key: Booking -> Option<int>)
    ensures forall b: Booking, c: Booking :: b.date == c.date ==> key(b) == key(c)
  {
    (b: Booking) => parseDate(b.date)
  }

  /** The today view: today's records that have a name, ordered by the
      parsed time of day. */
  function TodayView(store: seq<Booking>, isToday: string -> bool, parseTime: string -> Option<int>): (r: seq<Booking>)
    ensures multiset(r) == multiset(Filter(TodayAppointments(store, isToday), HasName))
  {
    SortWith(Filter(TodayAppointments(store, isToday), HasName), ParsedOrder(TimeKey(parseTime)))
  }

  /** Every entry of the today view has a date, a name and is today. */
  lemma TodayViewEntries(store: seq<Booking>, isToday: string -> bool, parseTime: string -> Option<int>)
    ensures forall b :: b in TodayView(store, isToday, parseTime) ==>
      b.date != "" && b.patientName != "" && isToday(b.date) && b in store
  {
    var today := TodayAppointments(store, isToday);
    var named := Filter(today, HasName);
    SortWithMembers(named, ParsedOrder(TimeKey(parseTime)));
    FilterMembers(today, HasName);
  }

  /** When the time of every record the today view keeps parses, the view is
      in time-of-day order; records of other days and unnamed ones are
      dropped before any comparison, so their times do not matter. */
  lemma TodayViewSorted(store: seq<Booking>, isToday: string -> bool, parseTime: string -> Option<int>)
    requires forall b :: b in store && b.date != "" && isToday(b.date) && HasName(b) ==> TimeKey(parseTime)(b).Some?
    ensures SortedBy(TodayView(store, isToday, parseTime), (b: Booking) => KeyOrZero(TimeKey(parseTime), b))
  {
    var today := TodayAppointments(store, isToday);
    var named := Filter(today, HasName);
    FilterMembers(today, HasName);
    ParsedOrderAgrees(TimeKey(parseTime), named);
    SortWithSorted(named, ParsedOrder(TimeKey(parseTime)), (b: Booking) => KeyOrZero(TimeKey(parseTime), b));
  }

  /** The all view: the well-formed records, ordered by parsed date. */
  function AllView(store: seq<Booking>, parseDate: string -> Option<int>): (r: seq<Booking>)
    ensures multiset(r) == multiset(ValidBookings(store))
  {
    SortWith(ValidBookings(store), ParsedOrder(DateKey(parseDate)))
  }

  /** The all view lists exactly the records with a name and a date. */
  lemma AllViewEntries(store: seq<Booking>, parseDate: string -> Option<int>)
    ensures forall b :: b in AllView(store, parseDate) <==> b in store && Listable(b)
  {
    SortWithMembers(ValidBookings(store), ParsedOrder(DateKey(parseDate)));
    FilterMembers(store, Listable);
  }

  /** When the date of every record with a name and a date parses, the all
      view is in date order; malformed records are dropped before sorting. */
  lemma AllViewSorted(store: seq<Booking>, parseDate: string -> Option<int>)
    requires forall b :: b in store && Listable(b) ==> DateKey(parseDate)(b).Some?
    ensures SortedBy(AllView(store, parseDate), (b: Booking) => KeyOrZero(DateKey(parseDate), b))
  {
    var valid := ValidBookings(store);
    FilterMembers(store, Listable);
    ParsedOrderAgrees(DateKey(parseDate), valid);
    SortWithSorted(valid, ParsedOrder(DateKey(parseDate)), (b: Booking) => KeyOrZero(DateKey(parseDate), b));
  }

  /** Before sorting, the malformed-record filter keeps the well-formed
      records in store order: it distributes over concatenation and keeps a
      store of well-formed records whole. */
  lemma ValidBookingsOrder(a: seq<Booking>, b: seq<Booking>)
    ensures ValidBookings(a + b) == ValidBookings(a) + ValidBookings(b)
    ensures (forall i :: 0 <= i < |a| ==> Listable(a[i])) ==> ValidBookings(a) == a
  {
    FilterAppend(a, b, Listable);
    FilterKeepsAll(a, Listable);
  }

  // ---------------------------------------------------------------------------
  // Dashboard

  datatype Stats = Stats(total: nat, pending: nat, today: nat, thisWeek: nat)

  /** The "this week" counter's filter: a date that parses to a day on or
      after `weekAgo`. */
  predicate SinceWeekAgo(b: Booking, parseDate: string -> Option<int>, weekAgo: int)
    ensures b.date == "" || parseDate(b.date).None? ==> !SinceWeekAgo(b, parseDate, weekAgo)
  {
    b.date != "" && parseDate(b.date).Some? && parseDate(b.date).value >= weekAgo
  }

  /** The dashboard counters. */
  function Dashboard(store: seq<Booking>, queue: seq<Notification>, isToday: string -> bool,
                     parseDate: string -> Option<int>, weekAgo: int): (s: Stats)
    ensures s.total == |store| && s.pending == |queue|
    ensures s.today <= s.total && s.thisWeek <= s.total
  {
    Stats(|store|, |queue|, |TodayAppointments(store, isToday)|,
          |Filter(store, (b: Booking) => SinceWeekAgo(b, parseDate, weekAgo))|)
  }

  /** The "Today" counter counts today's records before the name filter, so
      it can exceed the length of the list the today tab shows; the two agree
      exactly when every record of today has a name. */
  lemma TodayCounterVersusList(store: seq<Booking>, queue: seq<Notification>, isToday: string -> bool,
                               parseTime: string -> Option<int>, parseDate: string -> Option<int>, weekAgo: int)
    ensures |TodayView(store, isToday, parseTime)| <= Dashboard(store, queue, isToday, parseDate, weekAgo).today
    ensures var today := TodayAppointments(store, isToday);
      |TodayView(store, isToday, parseTime)| == Dashboard(store, queue, isToday, parseDate, weekAgo).today
      <==> forall i :: 0 <= i < |today| ==> HasName(today[i])
  {
    var today := TodayAppointments(store, isToday);
    var named := Filter(today, HasName);
    assert |multiset(TodayView(store, isToday, parseTime))| == |multiset(named)|;
    FilterKeepsAll(today, HasName);
    if |named| == |today| {
      FilterSameLength(today, HasName);
    }
  }

  lemma {:induction false} FilterSameLength(s: seq<Booking>, p: Booking -> bool)
    requires |Filter(s, p)| == |s|
    ensures Filter(s, p) == s
    decreases |s|
  {
    if s != [] {
      FilterSameLength(s[1..], p);
    }
  }
}

=== FILE: availability.dfy ===
/**
 The availability resolver of the booking page: each catalog label of the
 chosen day is flagged available unless a stored booking already occupies the
 same (date key, time label, consultation type) triple. Unavailable slots stay
 in the list, flagged, so the page can render them disabled.
 */
module Availability {
  import opened Records
  import opened Catalog
  import opened Sequences

  /** Booking `b` occupies the slot (date, time, ctype). */
  predicate Occupies(b: Booking, date: string, time: string, ctype: ConsultationType)
  {
    b.date == date && b.time == time && b.consultationType == ctype
  }

  /** `isSlotBooked`: some stored booking occupies the slot. */
  function IsSlotBooked(store: seq<Booking>, date: string, time: string, ctype: ConsultationType): (r: bool)
    ensures r <==> exists i :: 0 <= i < |store| && Occupies(store[i], date, time, ctype)
  {
    if store == [] then false
    else Occupies(store[0], date, time, ctype) || IsSlotBooked(store[1..], date, time, ctype)
  }

  /** Flags each label in order; nothing is dropped or reordered. */
  function Resolve(labels: seq<string>, date: string, ctype: ConsultationType, store: seq<Booking>): (r: seq<TimeSlot>)
    ensures |r| == |labels|
    ensures forall i :: 0 <= i < |r| ==> r[i].time == labels[i]
    ensures forall i :: 0 <= i < |r| ==>
      (r[i].available <==> forall b :: b in store ==> !Occupies(b, date, labels[i], ctype))
  {
    if labels == [] then []
    else
      var slot := TimeSlot(labels[0], !IsSlotBooked(store, date, labels[0], ctype));
      [slot] + Resolve(labels[1..], date, ctype, store)
  }

  /** `getAvailableSlots(date)` for the page's consultation type. */
  function AvailableSlots(ctype: ConsultationType, weekday: int, date: string, store: seq<Booking>): (r: seq<TimeSlot>)
    ensures |r| == |CandidateSlots(ctype, weekday)|
    ensures forall i :: 0 <= i < |r| ==> r[i].time == CandidateSlots(ctype, weekday)[i]
    ensures forall i :: 0 <= i < |r| ==>
      (r[i].available <==> forall b :: b in store ==> !Occupies(b, date, r[i].time, ctype))
  {
    Resolve(CandidateSlots(ctype, weekday), date, ctype, store)
  }

  predicate IsFree(slot: TimeSlot)
  {
    slot.available
  }

  /** `slots.filter(slot => slot.available)`. */
  function FreeSlots(slots: seq<TimeSlot>): (r: seq<TimeSlot>)
    ensures |r| <= |slots|
    ensures forall i :: 0 <= i < |r| ==> r[i].available && r[i] in slots
    ensures forall i :: 0 <= i < |slots| && slots[i].available ==> slots[i] in r
  {
    Filter(slots, IsFree)
  }

  /** `getSlotsCount(date)`: how many of the day's slots are free. */
  function SlotsCount(ctype: ConsultationType, weekday: int, date: string, store: seq<Booking>): (n: nat)
    ensures n <= |CandidateSlots(ctype, weekday)|
    ensures store == [] ==> n == |CandidateSlots(ctype, weekday)|
  {
    var slots := AvailableSlots(ctype, weekday, date, store);
    EmptyStoreAllFree(slots, store);
    |FreeSlots(slots)|
  }

  lemma EmptyStoreAllFree(slots: seq<TimeSlot>, store: seq<Booking>)
    requires store == [] ==> forall i :: 0 <= i < |slots| ==> slots[i].available
    ensures store == [] ==> |FreeSlots(slots)| == |slots|
  {
    FilterKeepsAll(slots, IsFree);
  }

  lemma IsSlotBookedAppend(store: seq<Booking>, b: Booking, date: string, time: string, ctype: ConsultationType)
    ensures IsSlotBooked(store + [b], date, time, ctype) <==>
      IsSlotBooked(store, date, time, ctype) || Occupies(b, date, time, ctype)
  {
    var s := store + [b];
    if Occupies(b, date, time, ctype) {
      assert Occupies(s[|store|], date, time, ctype);
    }
    if IsSlotBooked(store, date, time, ctype) {
      var i :| 0 <= i < |store| && Occupies(store[i], date, time, ctype);
      assert s[i] == store[i];
    }
  }

  /** Cross-type (and cross-date) independence: appending a booking for
      another consultation type or another date leaves every slot of
      (date, ctype) as it was. */
  lemma AppendElsewhereUnchanged(ctype: ConsultationType, weekday: int, date: string, store: seq<Booking>, b: Booking)
    requires b.consultationType != ctype || b.date != date
    ensures AvailableSlots(ctype, weekday, date, store + [b]) == AvailableSlots(ctype, weekday, date, store)
  {
    var r := AvailableSlots(ctype, weekday, date, store);
    var r' := AvailableSlots(ctype, weekday, date, store + [b]);
    forall i | 0 <= i < |r|
      ensures r'[i] == r[i]
    {
      IsSlotBookedAppend(store, b, date, r[i].time, ctype);
    }
  }

  /** Bookings of the other consultation type never make a slot unavailable:
      the resolver sees only the bookings of its own type. */
  lemma {:induction false} OtherTypeIgnored(ctype: ConsultationType, weekday: int, date: string, store: seq<Booking>, other: seq<Booking>)
    requires forall i :: 0 <= i < |other| ==> other[i].consultationType != ctype
    ensures AvailableSlots(ctype, weekday, date, store + other) == AvailableSlots(ctype, weekday, date, store)
    decreases |other|
  {
    if other != [] {
      var init := other[..|other| - 1];
      assert store + other == (store + init) + [other[|other| - 1]];
      OtherTypeIgnored(ctype, weekday, date, store, init);
      AppendElsewhereUnchanged(ctype, weekday, date, store + init, other[|other| - 1]);
    }
  }

  /** After appending booking `b` for (date, ctype), b's slot is unavailable
      and every other slot keeps its flag. */
  lemma AppendMarksOnlyItsSlot(ctype: ConsultationType, weekday: int, date: string, store: seq<Booking>, b: Booking)
    requires b.consultationType == ctype && b.date == date
    ensures var r := AvailableSlots(ctype, weekday, date, store);
      var r' := AvailableSlots(ctype, weekday, date, store + [b]);
      forall i :: 0 <= i < |r| ==> r'[i].available == (r[i].available && r[i].time != b.time)
  {
    var r := AvailableSlots(ctype, weekday, date, store);
    forall i | 0 <= i < |r|
      ensures AvailableSlots(ctype, weekday, date, store + [b])[i].available == (r[i].available && r[i].time != b.time)
    {
      IsSlotBookedAppend(store, b, date, r[i].time, ctype);
    }
  }

  /** Whether appending `b` takes one free slot of (date, ctype) over labels. */
  predicate TakesFreeSlot(labels: seq<string>, date: string, ctype: ConsultationType, store: seq<Booking>, b: Booking)
  {
    b.date == date && b.consultationType == ctype && b.time in labels
      && !IsSlotBooked(store, date, b.time, ctype)
  }

  lemma {:induction false} FreeCountAfterAppend(labels: seq<string>, date: string, ctype: ConsultationType, store: seq<Booking>, b: Booking)
    requires Distinct(labels)
    ensures |FreeSlots(Resolve(labels, date, ctype, store + [b]))|
      + (if TakesFreeSlot(labels, date, ctype, store, b) then 1 else 0)
      == |FreeSlots(Resolve(labels, date, ctype, store))|
    decreases |labels|
  {
    if labels != [] {
      var rest := labels[1..];
      assert Distinct(rest);
      FreeCountAfterAppend(rest, date, ctype, store, b);
      IsSlotBookedAppend(store, b, date, labels[0], ctype);
      assert b.time in labels <==> b.time == labels[0] || b.time in rest;
      if b.time == labels[0] {
        assert b.time !in rest;
      }
    }
  }

  /** Appending a booking lowers the free count of its own (date, type) by
      exactly one when it takes a free catalog slot, and otherwise (another
      date, another type, an already-taken or unknown time) leaves it as it
      was; the count never rises. */
  lemma SlotsCountAfterAppend(ctype: ConsultationType, weekday: int, date: string, store: seq<Booking>, b: Booking)
    ensures SlotsCount(ctype, weekday, date, store + [b])
      + (if TakesFreeSlot(CandidateSlots(ctype, weekday), date, ctype, store, b) then 1 else 0)
      == SlotsCount(ctype, weekday, date, store)
    ensures SlotsCount(ctype, weekday, date, store + [b]) <= SlotsCount(ctype, weekday, date, store)
    ensures b.consultationType != ctype || b.date != date ==>
      SlotsCount(ctype, weekday, date, store + [b]) == SlotsCount(ctype, weekday, date, store)
  {
    CatalogChronological(ctype, weekday);
    FreeCountAfterAppend(CandidateSlots(ctype, weekday), date, ctype, store, b);
  }

  /** The page's "Morning" and "Evening" groups partition the day's slots:
      every slot shows in exactly one group, and the group sizes add up to
      the catalog length. */
  lemma DaySplitPartition(ctype: ConsultationType, weekday: int, date: string, store: seq<Booking>)
    ensures var slots := AvailableSlots(ctype, weekday, date, store);
      && |MorningSlots(slots)| + |EveningSlots(slots)| == |slots|
      && forall x :: x in slots ==> (x in MorningSlots(slots) <==> x !in EveningSlots(slots))
  {
    CatalogChronological(ctype, weekday);
    MorningEveningPartition(AvailableSlots(ctype, weekday, date, store));
  }
}

=== FILE: booking.dfy ===
/**
 The booking page's write path and its three-step flow
 (datetime, contact, confirmation). The slot conflict check runs only when
 leaving the datetime step; `saveBooking` appends without re-checking and
 does not undo the booking when the notification write fails.
 */
module BookingPage {
  import opened Records
  import opened Text
  import opened Catalog
  import opened Availability

  /** The fixed WhatsApp deep-link prefix with India's country code. */
  const WhatsappPrefix: string := "https://wa.me/91"

  /** The link stored at enqueue time: the prefix followed by the phone's
      digits. A phone without digits leaves the bare prefix; there is no
      sentinel at this point. */
  function EnqueueLink(phone: string): (r: string)
    ensures |r| == |WhatsappPrefix| + |DigitsOnly(phone)|
    ensures r[..|WhatsappPrefix|] == WhatsappPrefix
    ensures AllDigits(r[|WhatsappPrefix|..])
    ensures r[|WhatsappPrefix|..] == DigitsOnly(phone)
    ensures DigitsOnly(phone) == [] ==> r == WhatsappPrefix
  {
    WhatsappPrefix + DigitsOnly(phone)
  }

  /** Two phones give the same stored link exactly when they carry the same
      digits: formatting characters never change the link. */
  lemma EnqueueLinkDeterminedByDigits(p: string, q: string)
    ensures EnqueueLink(p) == EnqueueLink(q) <==> DigitsOnly(p) == DigitsOnly(q)
    ensures EnqueueLink(DigitsOnly(p)) == EnqueueLink(p)
  {
    if EnqueueLink(p) == EnqueueLink(q) {
      assert DigitsOnly(p) == EnqueueLink(p)[|WhatsappPrefix|..];
      assert DigitsOnly(q) == EnqueueLink(q)[|WhatsappPrefix|..];
    }
    DigitsOnlyIdempotent(p);
  }

  /** The notification enqueued for a booking: a denormalized copy of the
      booking's fields plus the stored link. */
  function NotificationFor(b: Booking): (n: Notification)
    ensures n.date == b.date && n.time == b.time
    ensures n.patientName == b.patientName && n.patientPhone == b.patientPhone
    ensures n.consultationType == b.consultationType && n.timestamp == b.timestamp
    ensures n.whatsappLink == EnqueueLink(b.patientPhone)
  {
    Notification(b.date, b.time, b.patientName, b.patientPhone,
                 b.consultationType, b.timestamp, EnqueueLink(b.patientPhone))
  }

  /** The outcome of `saveBooking`: the page's booking list, the pending
      queue, and whether the call reported success. */
  datatype Saved = Saved(store: seq<Booking>, queue: seq<Notification>, ok: bool)

  /** `saveBooking` followed by `sendNotifications`. The booking list is
      extended before any storage write, so it grows even when a write
      throws; `writeFails` stands for a storage write or the queue's JSON
      read throwing, after which the notification is not enqueued and the
      call reports failure. */
  function SaveBooking(store: seq<Booking>, queue: seq<Notification>, b: Booking, writeFails: bool): (r: Saved)
    ensures r.ok <==> !writeFails
  {
    if writeFails then Saved(store + [b], queue, false)
    else Saved(store + [b], queue + [NotificationFor(b)], true)
  }

  /** A save appends exactly one booking at the end and keeps every earlier
      entry; a successful save appends exactly one notification, the copy
      of that booking. */
  lemma SaveAppends(store: seq<Booking>, queue: seq<Notification>, b: Booking, writeFails: bool)
    ensures var r := SaveBooking(store, queue, b, writeFails);
      && |r.store| == |store| + 1 && r.store[..|store|] == store && r.store[|store|] == b
      && (r.ok ==> |r.queue| == |queue| + 1 && r.queue[..|queue|] == queue
                   && r.queue[|queue|] == NotificationFor(b))
  {
  }

  /** No commit-time conflict check: a save succeeds even when the slot is
      already occupied, and the store then holds two bookings for it. */
  lemma SaveDoesNotRecheck(store: seq<Booking>, queue: seq<Notification>, b: Booking)
    requires IsSlotBooked(store, b.date, b.time, b.consultationType)
    ensures var r := SaveBooking(store, queue, b, false);
      && r.ok
      && exists i, j :: 0 <= i < j < |r.store|
           && Occupies(r.store[i], b.date, b.time, b.consultationType)
           && Occupies(r.store[j], b.date, b.time, b.consultationType)
  {
    var r := SaveBooking(store, queue, b, false);
    var i :| 0 <= i < |store| && Occupies(store[i], b.date, b.time, b.consultationType);
    assert r.store[i] == store[i];
    assert Occupies(r.store[|store|], b.date, b.time, b.consultationType);
  }

  /** No rollback: a failed notification write leaves the booking stored
      with no pending notification for it. */
  lemma FailedSaveKeepsBooking(store: seq<Booking>, queue: seq<Notification>, b: Booking)
    ensures var r := SaveBooking(store, queue, b, true);
      !r.ok && b in r.store && r.queue == queue
  {
    assert SaveBooking(store, queue, b, true).store[|store|] == b;
  }

  // ---------------------------------------------------------------------------
  // The booking flow

  datatype Step = DateTime | Contact | Confirmation

  /** The page's state: the consultation type it was opened with, the step,
      the selected date (its `yyyy-MM-dd` key and weekday), the selected time
      label ("" when none), the contact fields, the booking list loaded on
      mount and the pending queue. */
  datatype Flow = Flow(
    ctype: ConsultationType,
    step: Step,
    date: string,
    weekday: int,
    time: string,
    name: string,
    phone: string,
    store: seq<Booking>,
    queue: seq<Notification>)

  /** The page as it opens: today selected, no time, empty contact fields. */
  function Start(ctype: ConsultationType, date: string, weekday: int,
                 store: seq<Booking>, queue: seq<Notification>): (f: Flow)
    ensures f.step == DateTime && f.time == "" && f.store == store && f.queue == queue
    ensures f.ctype == ctype && f.date == date && f.weekday == weekday && f.name == "" && f.phone == ""
  {
    Flow(ctype, DateTime, date, weekday, "", "", "", store, queue)
  }

  /** Clicking a date: it becomes selected and the time selection is cleared. */
  function SelectDate(f: Flow, date: string, weekday: int): (g: Flow)
    ensures g.date == date && g.weekday == weekday && g.time == ""
    ensures g == f.(date := date, weekday := weekday, time := "")
  {
    f.(date := date, weekday := weekday, time := "")
  }

  /** Clicking a time button. */
  function SelectTime(f: Flow, t: string): (g: Flow)
    ensures g.time == t
    ensures g == f.(time := t)
  {
    f.(time := t)
  }

  /** Typing into the contact form. */
  function EnterContact(f: Flow, name: string, phone: string): (g: Flow)
    ensures g.name == name && g.phone == phone
    ensures g == f.(name := name, phone := phone)
  {
    f.(name := name, phone := phone)
  }

  /** Whether the page enables a time button: the slot is listed for the day
      and available. */
  predicate TimeSelectable(f: Flow, t: string)
    ensures TimeSelectable(f, t) ==>
      t in CandidateSlots(f.ctype, f.weekday) && !IsSlotBooked(f.store, f.date, t, f.ctype)
  {
    exists i :: 0 <= i < |AvailableSlots(f.ctype, f.weekday, f.date, f.store)|
      && AvailableSlots(f.ctype, f.weekday, f.date, f.store)[i] == TimeSlot(t, true)
  }

  /** Whether the page enables its Continue button: on the datetime step a
      time is selected; on the contact step name and phone are non-empty. */
  predicate ContinueEnabled(f: Flow)
    ensures ContinueEnabled(f) ==> f.step != Confirmation
    ensures f.step == DateTime ==> (ContinueEnabled(f) <==> f.time != "")
  {
    match f.step
    case DateTime => f.time != ""
    case Contact => f.name != "" && f.phone != ""
    case Confirmation => false
  }

  /** The booking the contact step submits, stamped with the clock value `now`. */
  function PendingBooking(f: Flow, now: int): (b: Booking)
    ensures Occupies(b, f.date, f.time, f.ctype)
    ensures b.patientName == f.name && b.patientPhone == f.phone && b.timestamp == Some(now)
  {
    Booking(f.date, f.time, f.name, f.phone, f.ctype, Some(now))
  }

  /** `handleContinue`. On the datetime step with a time selected, the slot
      is re-checked against the page's booking list: a taken slot clears the
      selection and stays on the step; a free one moves to contact. On the
      contact step the booking is saved (no re-check) and the flow moves to
      confirmation only if the save reports success. Otherwise nothing. */
  function Continue(f: Flow, now: int, writeFails: bool): (g: Flow)
    ensures g.ctype == f.ctype && g.date == f.date && g.weekday == f.weekday
    ensures f.step == DateTime && f.time != "" ==>
      if IsSlotBooked(f.store, f.date, f.time, f.ctype)
      then g.step == DateTime && g.time == ""
      else g.step == Contact && g.time == f.time
    ensures f.step == DateTime ==>
      g.store == f.store && g.queue == f.queue && g.name == f.name && g.phone == f.phone
    ensures f.step == Contact ==>
      && g.time == f.time && g.name == f.name && g.phone == f.phone
      && g.store == f.store + [PendingBooking(f, now)]
      && (g.step == Confirmation <==> !writeFails)
      && (!writeFails ==> g.queue == f.queue + [NotificationFor(PendingBooking(f, now))])
      && (writeFails ==> g.step == Contact && g.queue == f.queue)
    ensures f.step == Confirmation || (f.step == DateTime && f.time == "") ==> g == f
  {
    if f.step == DateTime && f.time != "" then
      if IsSlotBooked(f.store, f.date, f.time, f.ctype) then f.(time := "")
      else f.(step := Contact)
    else if f.step == Contact then
      var saved := SaveBooking(f.store, f.queue, PendingBooking(f, now), writeFails);
      f.(store := saved.store, queue := saved.queue,
         step := if saved.ok then Confirmation else Contact)
    else f
  }

  /** `handleBack`: contact goes back to datetime and confirmation back to
      contact, keeping every selection. On the datetime step the page
      navigates away, which this state does not record. */
  function Back(f: Flow): (g: Flow)
    ensures f.step == Contact ==> g == f.(step := DateTime)
    ensures f.step == Confirmation ==> g == f.(step := Contact)
    ensures f.step == DateTime ==> g == f
  {
    match f.step
    case Contact => f.(step := DateTime)
    case Confirmation => f.(step := Contact)
    case DateTime => f
  }

  /** For a time the day lists, the page's button state and the re-check in
      Continue agree: the button is enabled exactly when Continue then moves
      on to the contact step. */
  lemma SelectableIffRecheckPasses(f: Flow, t: string, now: int, writeFails: bool)
    requires f.step == DateTime
    requires t in CandidateSlots(f.ctype, f.weekday)
    ensures TimeSelectable(f, t) <==> Continue(SelectTime(f, t), now, writeFails).step == Contact
  {
    var labels := CandidateSlots(f.ctype, f.weekday);
    var slots := AvailableSlots(f.ctype, f.weekday, f.date, f.store);
    var k :| 0 <= k < |labels| && labels[k] == t;
    assert t != "" by {
      assert |labels[k]| == 8;
    }
    if TimeSelectable(f, t) {
      var i :| 0 <= i < |slots| && slots[i] == TimeSlot(t, true);
    } else {
      assert slots[k].time == t;
    }
  }

  /** Outside the contact step, a Continue the page disables changes nothing:
      the handler's own guard matches the button's. */
  lemma DisabledContinueIsInert(f: Flow, now: int, writeFails: bool)
    requires f.step != Contact && !ContinueEnabled(f)
    ensures Continue(f, now, writeFails) == f
  {
  }

  /** Continue from the datetime step onto a free slot, then Back, returns
      exactly to the state before. */
  lemma ContinueBackRoundTrip(f: Flow, now: int, writeFails: bool)
    requires f.step == DateTime && f.time != ""
    requires !IsSlotBooked(f.store, f.date, f.time, f.ctype)
    ensures Back(Continue(f, now, writeFails)) == f
  {
  }

  /** Continue enters the contact step only with a non-empty time that no
      booking in the page's list occupies. (Back from confirmation also
      enters it, with the slot already taken: see
      `DoubleBookingThroughBack`.) */
  lemma ContactNeedsFreeSlot(f: Flow, now: int, writeFails: bool)
    requires f.step != Contact
    requires Continue(f, now, writeFails).step == Contact
    ensures f.time != ""
    ensures forall b :: b in f.store ==> !Occupies(b, f.date, f.time, f.ctype)
  {
  }

  /** Reaching confirmation appends exactly one booking for the selected slot
      and exactly one notification, the copy of that booking. */
  lemma ConfirmationRecordsBooking(f: Flow, now: int, writeFails: bool)
    requires f.step != Confirmation
    requires Continue(f, now, writeFails).step == Confirmation
    ensures var g := Continue(f, now, writeFails);
      && |g.store| == |f.store| + 1 && g.store[..|f.store|] == f.store
      && Occupies(g.store[|f.store|], f.date, f.time, f.ctype)
      && |g.queue| == |f.queue| + 1 && g.queue[..|f.queue|] == f.queue
      && g.queue[|f.queue|].whatsappLink == EnqueueLink(f.phone)
  {
  }

  /** Double booking through the Back button: after a confirmed booking,
      Back returns to the contact step with the same selection, and Continue
      saves the same slot a second time, because the contact step never
      re-checks. The store then holds two bookings for one slot. */
  lemma DoubleBookingThroughBack(ctype: ConsultationType, date: string, weekday: int,
                                 time: string, name: string, phone: string, t1: int, t2: int)
    requires time != ""
    ensures var f0 := EnterContact(SelectTime(Start(ctype, date, weekday, [], []), time), name, phone);
      var f1 := Continue(f0, t1, false);
      var f2 := Continue(f1, t1, false);
      var f3 := Continue(Back(f2), t2, false);
      && f1.step == Contact && f2.step == Confirmation && f3.step == Confirmation
      && |f3.store| == 2 && |f3.queue| == 2
      && Occupies(f3.store[0], date, time, ctype)
      && Occupies(f3.store[1], date, time, ctype)
  {
  }

  // ---------------------------------------------------------------------------
  // The date strip

  /** The weekday of an epoch-day ordinal, as `getDay` numbers it
      (0 = Sunday); 1970-01-01 was a Thursday. */
  function WeekdayOf(day: int): (w: int)
    ensures 0 <= w < 7
  {
    (day + 4) % 7
  }

  /** Moving `i` days forward within a week moves the weekday by `i`,
      wrapping after Saturday. */
  lemma WeekdayShift(day: int, i: int)
    requires 0 <= i < 7
    ensures WeekdayOf(day + i) == if WeekdayOf(day) + i < 7 then WeekdayOf(day) + i else WeekdayOf(day) + i - 7
  {
    var q := (day + 4) / 7;
    var w0 := WeekdayOf(day);
    assert day + 4 == 7 * q + w0;
    if w0 + i < 7 {
      assert day + i + 4 == 7 * q + (w0 + i);
    } else {
      assert day + i + 4 == 7 * (q + 1) + (w0 + i - 7);
    }
  }

  /** `availableDates`: today and the six following days. */
  function AvailableDates(today: int): (r: seq<int>)
    ensures |r| == 7
    ensures forall i :: 0 <= i < 7 ==> r[i] == today + i
  {
    seq(7, i => today + i)
  }

  /** Every weekday occurs exactly once in the date strip; in particular it
      always shows exactly one Sunday. */
  lemma DateStripCoversWeek(today: int, w: int)
    requires 0 <= w < 7
    ensures exists i :: 0 <= i < 7 && WeekdayOf(AvailableDates(today)[i]) == w
    ensures forall i, j :: 0 <= i < j < 7 ==>
      WeekdayOf(AvailableDates(today)[i]) != WeekdayOf(AvailableDates(today)[j])
  {
    var dates := AvailableDates(today);
    var w0 := WeekdayOf(today);
    var i := if w >= w0 then w - w0 else w - w0 + 7;
    WeekdayShift(today, i);
    assert WeekdayOf(dates[i]) == w;
    forall i, j | 0 <= i < j < 7
      ensures WeekdayOf(dates[i]) != WeekdayOf(dates[j])
    {
      WeekdayShift(today, i);
      WeekdayShift(today, j);
    }
  }

  /** With no bookings, the strip shows exactly one in-person day with no
      slots (its Sunday), and no video day without slots. */
  lemma OneClosedDayInStrip(today: int, i: int)
    requires 0 <= i < 7
    ensures var d := AvailableDates(today)[i];
      SlotsCount(InPerson, WeekdayOf(d), "", []) == 0 <==> WeekdayOf(d) == Sunday
    ensures SlotsCount(Video, WeekdayOf(AvailableDates(today)[i]), "", []) == 20
  {
  }
}

=== FILE: catalog.dfy ===
/**
 The slot catalog of the booking page: the fixed, ordered time labels offered
 for a consultation type on a weekday, and the "Morning"/"Evening" display
 split that reads each label's hour and AM/PM marker.
 */
module Catalog {
  import opened Records
  import opened Text
  import opened Sequences

  const Sunday := 0
  const Saturday := 6

  /** A catalog entry as the clock shows it: hour 1-12, minute, AM or PM. */
  datatype ClockTime = ClockTime(hour: nat, minute: nat, pm: bool)

  predicate ValidClock(c: ClockTime)
  {
    1 <= c.hour <= 12 && c.minute < 60
  }

  function DigitChar(n: nat): (c: char)
    requires n < 10
    ensures IsDigit(c)
  {
    ('0' as int + n) as char
  }

  /** The label text of a catalog entry: "hh:mm AM" or "hh:mm PM". */
  function Format(c: ClockTime): string
    requires ValidClock(c)
  {
    [DigitChar(c.hour / 10), DigitChar(c.hour % 10), ':',
     DigitChar(c.minute / 10), DigitChar(c.minute % 10), ' ',
     if c.pm then 'P' else 'A', 'M']
  }

  function Labels(cs: seq<ClockTime>): (r: seq<string>)
    requires forall i :: 0 <= i < |cs| ==> ValidClock(cs[i])
    ensures |r| == |cs|
    ensures forall i :: 0 <= i < |cs| ==> r[i] == Format(cs[i])
  {
    seq(|cs|, i requires 0 <= i < |cs| => Format(cs[i]))
  }

  /** Video consultations, every day of the week: half-hourly 09:00 AM to
      11:30 AM, then half-hourly 02:00 PM to 08:30 PM. */
  const VideoTimes: seq<ClockTime> := VideoMorningTimes + VideoAfternoonTimes

  const VideoMorningTimes: seq<ClockTime> := [
    ClockTime(9, 0, false), ClockTime(9, 30, false), ClockTime(10, 0, false),
    ClockTime(10, 30, false), ClockTime(11, 0, false), ClockTime(11, 30, false)]

  const VideoAfternoonTimes: seq<ClockTime> := [
    ClockTime(2, 0, true), ClockTime(2, 30, true), ClockTime(3, 0, true),
    ClockTime(3, 30, true), ClockTime(4, 0, true), ClockTime(4, 30, true),
    ClockTime(5, 0, true), ClockTime(5, 30, true), ClockTime(6, 0, true),
    ClockTime(6, 30, true), ClockTime(7, 0, true), ClockTime(7, 30, true),
    ClockTime(8, 0, true), ClockTime(8, 30, true)]

  /** The in-person midday block, quarter-hourly 12:00 PM to 01:45 PM. */
  const MiddayTimes: seq<ClockTime> := [
    ClockTime(12, 0, true), ClockTime(12, 15, true), ClockTime(12, 30, true),
    ClockTime(12, 45, true), ClockTime(1, 0, true), ClockTime(1, 15, true),
    ClockTime(1, 30, true), ClockTime(1, 45, true)]

  /** The in-person evening block, quarter-hourly 07:30 PM to 08:45 PM. */
  const EveningTimes: seq<ClockTime> := [
    ClockTime(7, 30, true), ClockTime(7, 45, true), ClockTime(8, 0, true),
    ClockTime(8, 15, true), ClockTime(8, 30, true), ClockTime(8, 45, true)]

  /** The clock entries for one day (see `CandidateSlots`). */
  function CandidateTimes(ctype: ConsultationType, weekday: int): (r: seq<ClockTime>)
    ensures forall i :: 0 <= i < |r| ==> ValidClock(r[i])
  {
    match ctype
    case Video => VideoTimes
    case InPerson =>
      if weekday == Sunday then []
      else if weekday == Saturday then MiddayTimes
      else MiddayTimes + EveningTimes
  }

  /** The candidate labels for one day, before availability is applied.
      `weekday` is 0 (Sunday) to 6 (Saturday); any other value takes the
      Monday-to-Friday branch, as the page's final `else` does. */
  function CandidateSlots(ctype: ConsultationType, weekday: int): (r: seq<string>)
    ensures ctype == Video ==> |r| == 20
    ensures ctype == InPerson && weekday == Sunday ==> r == []
    ensures ctype == InPerson && weekday == Saturday ==> |r| == 8
    ensures ctype == InPerson && weekday != Sunday && weekday != Saturday ==> |r| == 14
  {
    Labels(CandidateTimes(ctype, weekday))
  }

  // ---------------------------------------------------------------------------
  // Label structure

  /** The shape of every catalog label: "hh:mm AM" or "hh:mm PM". */
  predicate WellFormedLabel(s: string)
  {
    && |s| == 8
    && IsDigit(s[0]) && IsDigit(s[1]) && s[2] == ':'
    && IsDigit(s[3]) && IsDigit(s[4]) && s[5] == ' '
    && (s[6] == 'A' || s[6] == 'P') && s[7] == 'M'
  }

  function DigitAt(s: string, i: nat): nat
    requires i < |s| && IsDigit(s[i])
  {
    s[i] as int - '0' as int
  }

  /** The hour as written on a well-formed label (1 to 12 in the catalog). */
  function LabelHour(s: string): nat
    requires WellFormedLabel(s)
  {
    10 * DigitAt(s, 0) + DigitAt(s, 1)
  }

  /** Minutes after midnight of a well-formed label, on the 12-hour clock
      (12 AM is midnight, 12 PM is noon). */
  function MinuteOfDay(s: string): nat
    requires WellFormedLabel(s)
  {
    var h24 := LabelHour(s) % 12 + (if s[6] == 'P' then 12 else 0);
    60 * h24 + 10 * DigitAt(s, 3) + DigitAt(s, 4)
  }

  /** Well-formed labels in strictly increasing time of day. */
  predicate Chronological(labels: seq<string>)
  {
    && (forall i :: 0 <= i < |labels| ==> WellFormedLabel(labels[i]))
    && (forall i :: 0 <= i < |labels| - 1 ==> MinuteOfDay(labels[i]) < MinuteOfDay(labels[i + 1]))
  }

  predicate Distinct(labels: seq<string>)
  {
    forall i, j :: 0 <= i < j < |labels| ==> labels[i] != labels[j]
  }

  lemma {:induction false} ChronologicalStrict(labels: seq<string>, i: int, j: int)
    requires Chronological(labels)
    requires 0 <= i < j < |labels|
    ensures MinuteOfDay(labels[i]) < MinuteOfDay(labels[j])
    decreases j - i
  {
    if j > i + 1 {
      ChronologicalStrict(labels, i, j - 1);
    }
  }

  lemma ChronologicalDistinct(labels: seq<string>)
    requires Chronological(labels)
    ensures Distinct(labels)
  {
    forall i, j | 0 <= i < j < |labels|
      ensures labels[i] != labels[j]
    {
      ChronologicalStrict(labels, i, j);
    }
  }

  /** Minutes after midnight of a clock entry. */
  function ClockMinutes(c: ClockTime): nat
  {
    60 * (c.hour % 12 + (if c.pm then 12 else 0)) + c.minute
  }

  /** A formatted entry is a well-formed label that reads back as the entry. */
  lemma FormatReading(c: ClockTime)
    requires ValidClock(c)
    ensures WellFormedLabel(Format(c))
    ensures LabelHour(Format(c)) == c.hour
    ensures Format(c)[6] == 'P' <==> c.pm
    ensures MinuteOfDay(Format(c)) == ClockMinutes(c)
  {
  }

  predicate ClockChronological(cs: seq<ClockTime>)
  {
    && (forall i :: 0 <= i < |cs| ==> ValidClock(cs[i]))
    && (forall i :: 0 <= i < |cs| - 1 ==> ClockMinutes(cs[i]) < ClockMinutes(cs[i + 1]))
  }

  lemma LabelsChronological(cs: seq<ClockTime>)
    requires ClockChronological(cs)
    ensures Chronological(Labels(cs))
  {
    var r := Labels(cs);
    forall i | 0 <= i < |r|
      ensures WellFormedLabel(r[i])
    {
      FormatReading(cs[i]);
    }
    forall i | 0 <= i < |r| - 1
      ensures MinuteOfDay(r[i]) < MinuteOfDay(r[i + 1])
    {
      FormatReading(cs[i]);
      FormatReading(cs[i + 1]);
    }
  }

  lemma ClockChronologicalAppend(a: seq<ClockTime>, b: seq<ClockTime>)
    requires ClockChronological(a) && ClockChronological(b) && a != [] && b != []
    requires ClockMinutes(a[|a| - 1]) < ClockMinutes(b[0])
    ensures ClockChronological(a + b)
  {
    var ab := a + b;
    forall i | 0 <= i < |ab| - 1
      ensures ClockMinutes(ab[i]) < ClockMinutes(ab[i + 1])
    {
      if i + 1 < |a| {
        assert ab[i] == a[i] && ab[i + 1] == a[i + 1];
      } else if i + 1 == |a| {
        assert ab[i] == a[|a| - 1] && ab[i + 1] == b[0];
      } else {
        assert ab[i] == b[i - |a|] && ab[i + 1] == b[i - |a| + 1];
      }
    }
  }

  lemma LabelsAppend(a: seq<ClockTime>, b: seq<ClockTime>)
    requires forall i :: 0 <= i < |a| ==> ValidClock(a[i])
    requires forall i :: 0 <= i < |b| ==> ValidClock(b[i])
    ensures Labels(a + b) == Labels(a) + Labels(b)
  {
    var ab := a + b;
    assert forall i :: 0 <= i < |ab| ==> ValidClock(ab[i]);
    assert forall i :: 0 <= i < |ab| ==> Labels(ab)[i] == (Labels(a) + Labels(b))[i];
  }

  lemma BlocksChronological()
    ensures ClockChronological(VideoMorningTimes)
    ensures ClockChronological(VideoAfternoonTimes)
    ensures ClockChronological(MiddayTimes)
    ensures ClockChronological(EveningTimes)
    ensures ClockMinutes(VideoMorningTimes[5]) < ClockMinutes(VideoAfternoonTimes[0])
    ensures ClockMinutes(MiddayTimes[7]) < ClockMinutes(EveningTimes[0])
  {
    VideoMorningChronological();
    VideoAfternoonChronological();
    MiddayChronological();
    EveningChronological();
  }

  lemma VideoMorningChronological()
    ensures ClockChronological(VideoMorningTimes)
  {
  }

  lemma VideoAfternoonChronological()
    ensures ClockChronological(VideoAfternoonTimes)
  {
    VideoBlockMinutes();
    assert forall i :: 0 <= i < |VideoAfternoonTimes| ==> ValidClock(VideoAfternoonTimes[i]);
    EvenlySpacedChronological(VideoAfternoonTimes, 840, 30);
  }

  /** Entries spaced by a positive step are in strictly increasing order. */
  lemma EvenlySpacedChronological(cs: seq<ClockTime>, start: int, step: int)
    requires step > 0
    requires forall i :: 0 <= i < |cs| ==> ValidClock(cs[i])
    requires forall i :: 0 <= i < |cs| ==> ClockMinutes(cs[i]) == start + step * i
    ensures ClockChronological(cs)
  {
    forall i | 0 <= i < |cs| - 1
      ensures ClockMinutes(cs[i]) < ClockMinutes(cs[i + 1])
    {
      assert step * (i + 1) == step * i + step;
    }
  }

  lemma MiddayChronological()
    ensures ClockChronological(MiddayTimes)
  {
  }

  lemma EveningChronological()
    ensures ClockChronological(EveningTimes)
  {
  }

  /** Every catalog list is made of well-formed labels in strictly
      increasing time of day, so no label appears twice in a day's list. */
  lemma CatalogChronological(ctype: ConsultationType, weekday: int)
    ensures Chronological(CandidateSlots(ctype, weekday))
    ensures Distinct(CandidateSlots(ctype, weekday))
  {
    CandidateTimesChronological(ctype, weekday);
    ClockLabelsDistinct(CandidateTimes(ctype, weekday));
  }

  lemma CandidateTimesChronological(ctype: ConsultationType, weekday: int)
    ensures ClockChronological(CandidateTimes(ctype, weekday))
  {
    BlocksChronological();
    if ctype == Video {
      ClockChronologicalAppend(VideoMorningTimes, VideoAfternoonTimes);
    } else if weekday != Sunday && weekday != Saturday {
      ClockChronologicalAppend(MiddayTimes, EveningTimes);
    }
  }

  lemma ClockLabelsDistinct(cs: seq<ClockTime>)
    requires ClockChronological(cs)
    ensures Chronological(Labels(cs))
    ensures Distinct(Labels(cs))
  {
    LabelsChronological(cs);
    ChronologicalDistinct(Labels(cs));
  }

  lemma LabelMinutes(cs: seq<ClockTime>)
    requires forall i :: 0 <= i < |cs| ==> ValidClock(cs[i])
    ensures forall i :: 0 <= i < |cs| ==> MinuteOfDay(Labels(cs)[i]) == ClockMinutes(cs[i])
  {
    forall i | 0 <= i < |cs|
      ensures MinuteOfDay(Labels(cs)[i]) == ClockMinutes(cs[i])
    {
      FormatReading(cs[i]);
    }
  }

  lemma VideoBlockMinutes()
    ensures forall i :: 0 <= i < 6 ==> ClockMinutes(VideoMorningTimes[i]) == 540 + 30 * i
    ensures forall i :: 0 <= i < 14 ==> ClockMinutes(VideoAfternoonTimes[i]) == 840 + 30 * i
  {
  }

  lemma InPersonBlockMinutes()
    ensures forall i :: 0 <= i < 8 ==> ClockMinutes(MiddayTimes[i]) == 720 + 15 * i
    ensures forall i :: 0 <= i < 6 ==> ClockMinutes(EveningTimes[i]) == 1170 + 15 * i
  {
  }

  /** The video schedule read off the label texts, the same on every
      weekday: half-hourly from 09:00 (540 minutes after midnight) to 11:30,
      then half-hourly from 14:00 (840) to 20:30. */
  lemma VideoSchedule(weekday: int)
    ensures var v := CandidateSlots(Video, weekday);
      && |v| == 20
      && (forall i :: 0 <= i < 6 ==> MinuteOfDay(v[i]) == 540 + 30 * i)
      && (forall i :: 6 <= i < 20 ==> MinuteOfDay(v[i]) == 840 + 30 * (i - 6))
  {
    VideoBlockMinutes();
    LabelMinutes(VideoTimes);
    assert forall i :: 0 <= i < 6 ==> VideoTimes[i] == VideoMorningTimes[i];
    assert forall i :: 6 <= i < 20 ==> VideoTimes[i] == VideoAfternoonTimes[i - 6];
  }

  /** The in-person schedule read off the label texts: closed on Sunday;
      quarter-hourly from 12:00 (720 minutes after midnight) to 13:45 on
      Saturday; on every other weekday the Saturday list followed by a
      quarter-hourly block from 19:30 (1170) to 20:45. */
  lemma InPersonSchedule(weekday: int)
    ensures weekday == Sunday ==> CandidateSlots(InPerson, weekday) == []
    ensures var p := CandidateSlots(InPerson, weekday);
      weekday == Saturday ==>
        && |p| == 8
        && (forall i :: 0 <= i < 8 ==> MinuteOfDay(p[i]) == 720 + 15 * i)
    ensures var p := CandidateSlots(InPerson, weekday);
      weekday != Sunday && weekday != Saturday ==>
        && |p| == 14
        && p[..8] == CandidateSlots(InPerson, Saturday)
        && (forall i :: 0 <= i < 8 ==> MinuteOfDay(p[i]) == 720 + 15 * i)
        && (forall i :: 8 <= i < 14 ==> MinuteOfDay(p[i]) == 1170 + 15 * (i - 8))
  {
    InPersonBlockMinutes();
    var cs := CandidateTimes(InPerson, weekday);
    LabelMinutes(cs);
    if weekday != Sunday && weekday != Saturday {
      assert forall i :: 0 <= i < 8 ==> cs[i] == MiddayTimes[i];
      assert forall i :: 8 <= i < 14 ==> cs[i] == EveningTimes[i - 8];
      assert cs[..8] == MiddayTimes;
    }
  }

  /** The video morning block as the page writes it. */
  lemma VideoMorningLabels()
    ensures Labels(VideoMorningTimes) == [
      "09:00 AM", "09:30 AM", "10:00 AM", "10:30 AM", "11:00 AM",
      "11:30 AM"]
  {
    var r := Labels(VideoMorningTimes);
    assert r[0] == Format(VideoMorningTimes[0]);
    assert r[1] == Format(VideoMorningTimes[1]);
    assert r[2] == Format(VideoMorningTimes[2]);
    assert r[3] == Format(VideoMorningTimes[3]);
    assert r[4] == Format(VideoMorningTimes[4]);
    assert r[5] == Format(VideoMorningTimes[5]);
  }

  /** The video afternoon block as the page writes it. */
  lemma VideoAfternoonLabels()
    ensures Labels(VideoAfternoonTimes) == [
      "02:00 PM", "02:30 PM", "03:00 PM", "03:30 PM", "04:00 PM",
      "04:30 PM", "05:00 PM", "05:30 PM", "06:00 PM", "06:30 PM",
      "07:00 PM", "07:30 PM", "08:00 PM", "08:30 PM"]
  {
    var r := Labels(VideoAfternoonTimes);
    assert r[0] == Format(VideoAfternoonTimes[0]);
    assert r[1] == Format(VideoAfternoonTimes[1]);
    assert r[2] == Format(VideoAfternoonTimes[2]);
    assert r[3] == Format(VideoAfternoonTimes[3]);
    assert r[4] == Format(VideoAfternoonTimes[4]);
    assert r[5] == Format(VideoAfternoonTimes[5]);
    assert r[6] == Format(VideoAfternoonTimes[6]);
    assert r[7] == Format(VideoAfternoonTimes[7]);
    assert r[8] == Format(VideoAfternoonTimes[8]);
    assert r[9] == Format(VideoAfternoonTimes[9]);
    assert r[10] == Format(VideoAfternoonTimes[10]);
    assert r[11] == Format(VideoAfternoonTimes[11]);
    assert r[12] == Format(VideoAfternoonTimes[12]);
    assert r[13] == Format(VideoAfternoonTimes[13]);
  }

  /** The in-person midday block as the page writes it. */
  lemma MiddayLabels()
    ensures Labels(MiddayTimes) == [
      "12:00 PM", "12:15 PM", "12:30 PM", "12:45 PM", "01:00 PM",
      "01:15 PM", "01:30 PM", "01:45 PM"]
  {
    var r := Labels(MiddayTimes);
    assert r[0] == Format(MiddayTimes[0]);
    assert r[1] == Format(MiddayTimes[1]);
    assert r[2] == Format(MiddayTimes[2]);
    assert r[3] == Format(MiddayTimes[3]);
    assert r[4] == Format(MiddayTimes[4]);
    assert r[5] == Format(MiddayTimes[5]);
    assert r[6] == Format(MiddayTimes[6]);
    assert r[7] == Format(MiddayTimes[7]);
  }

  /** The in-person evening block as the page writes it. */
  lemma EveningLabels()
    ensures Labels(EveningTimes) == [
      "07:30 PM", "07:45 PM", "08:00 PM", "08:15 PM", "08:30 PM",
      "08:45 PM"]
  {
    var r := Labels(EveningTimes);
    assert r[0] == Format(EveningTimes[0]);
    assert r[1] == Format(EveningTimes[1]);
    assert r[2] == Format(EveningTimes[2]);
    assert r[3] == Format(EveningTimes[3]);
    assert r[4] == Format(EveningTimes[4]);
    assert r[5] == Format(EveningTimes[5]);
  }

  /** The video list, the same on every weekday, label by label. */
  lemma VideoLabelTexts(weekday: int)
    ensures CandidateSlots(Video, weekday) == [
      "09:00 AM", "09:30 AM", "10:00 AM", "10:30 AM", "11:00 AM",
      "11:30 AM", "02:00 PM", "02:30 PM", "03:00 PM", "03:30 PM",
      "04:00 PM", "04:30 PM", "05:00 PM", "05:30 PM", "06:00 PM",
      "06:30 PM", "07:00 PM", "07:30 PM", "08:00 PM", "08:30 PM"]
  {
    VideoMorningLabels();
    VideoAfternoonLabels();
    ValidBlocks();
    LabelsAppend(VideoMorningTimes, VideoAfternoonTimes);
  }

  /** The in-person lists, label by label: none on Sunday, the midday block
      on Saturday, and the midday block followed by the evening block on
      every other weekday. */
  lemma InPersonLabelTexts(weekday: int)
    ensures weekday == Sunday ==> CandidateSlots(InPerson, weekday) == []
    ensures weekday == Saturday ==> CandidateSlots(InPerson, weekday) == [
      "12:00 PM", "12:15 PM", "12:30 PM", "12:45 PM", "01:00 PM",
      "01:15 PM", "01:30 PM", "01:45 PM"]
    ensures weekday != Sunday && weekday != Saturday ==> CandidateSlots(InPerson, weekday) == [
      "12:00 PM", "12:15 PM", "12:30 PM", "12:45 PM", "01:00 PM",
      "01:15 PM", "01:30 PM", "01:45 PM", "07:30 PM", "07:45 PM",
      "08:00 PM", "08:15 PM", "08:30 PM", "08:45 PM"]
  {
    MiddayLabels();
    EveningLabels();
    ValidBlocks();
    LabelsAppend(MiddayTimes, EveningTimes);
  }

  lemma ValidBlocks()
    ensures forall i :: 0 <= i < |VideoMorningTimes| ==> ValidClock(VideoMorningTimes[i])
    ensures forall i :: 0 <= i < |VideoAfternoonTimes| ==> ValidClock(VideoAfternoonTimes[i])
    ensures forall i :: 0 <= i < |MiddayTimes| ==> ValidClock(MiddayTimes[i])
    ensures forall i :: 0 <= i < |EveningTimes| ==> ValidClock(EveningTimes[i])
  {
  }

  /** The video list does not depend on the weekday. */
  lemma VideoEveryDay(weekday: int, other: int)
    ensures CandidateSlots(Video, weekday) == CandidateSlots(Video, other)
    ensures CandidateSlots(Video, weekday)[0] == "09:00 AM"
    ensures CandidateSlots(Video, weekday)[19] == "08:30 PM"
  {
  }

  // ---------------------------------------------------------------------------
  // Morning / evening split

  /** The hour the page reads: `parseInt(label.split(':')[0])`. */
  function DisplayHour(t: string): (r: Option<nat>)
    ensures r.None? <==> t == [] || !IsDigit(t[0])
  {
    ParseLeadingInt(FirstField(t))
  }

  /** Morning group: the label contains "AM", or its hour parses to less
      than 6 (an unparseable hour is NaN and compares false). */
  predicate IsMorning(t: string)
    ensures !Contains(t, "AM") && (t == [] || !IsDigit(t[0])) ==> !IsMorning(t)
  {
    var h := DisplayHour(t);
    Contains(t, "AM") || (h.Some? && h.value < 6)
  }

  /** Evening group: the label contains "PM" and its hour parses to 6 or more. */
  predicate IsEvening(t: string)
    ensures IsEvening(t) ==> Contains(t, "PM") && t != [] && IsDigit(t[0])
  {
    var h := DisplayHour(t);
    Contains(t, "PM") && h.Some? && h.value >= 6
  }

  lemma WellFormedReading(s: string)
    requires WellFormedLabel(s)
    ensures DisplayHour(s) == Some(LabelHour(s))
    ensures Contains(s, "AM") <==> s[6] == 'A'
    ensures Contains(s, "PM") <==> s[6] == 'P'
  {
    assert FirstField(s[2..]) == [];
    assert FirstField(s) == s[..2];
    assert LeadingDigits(s[..2]) == s[..2];
    assert s[..2][..1] == s[..1];
    assert DecimalValue(s[..1]) == DigitAt(s, 0) by {
      assert s[..1][..0] == [];
    }
    assert DecimalValue(s[..2]) == LabelHour(s);
    if s[6] == 'A' {
      assert s[6..][..2] == "AM";
    } else {
      assert s[6..][..2] == "PM";
    }
    forall i | 0 <= i <= |s| - 2 && i != 6
      ensures s[i..][..2] != "AM" && s[i..][..2] != "PM"
    {
      assert s[i..][..2][1] == s[i + 1];
    }
  }

  /** On a well-formed label the two groups are complementary: morning is
      AM, or PM with an hour below 6; so "12:xx PM" is evening. */
  lemma MorningEveningComplement(s: string)
    requires WellFormedLabel(s)
    ensures IsMorning(s) <==> !IsEvening(s)
    ensures IsEvening(s) <==> s[6] == 'P' && LabelHour(s) >= 6
    ensures s[6] == 'P' && s[..2] == "12" ==> IsEvening(s)
  {
    WellFormedReading(s);
    if s[..2] == "12" {
      assert s[0] == '1' && s[1] == '2';
    }
  }

  predicate IsMorningSlot(slot: TimeSlot)
  {
    IsMorning(slot.time)
  }

  predicate IsEveningSlot(slot: TimeSlot)
  {
    IsEvening(slot.time)
  }

  /** The page's `morningSlots` and `eveningSlots`. */
  function MorningSlots(slots: seq<TimeSlot>): (r: seq<TimeSlot>)
    ensures forall i :: 0 <= i < |r| ==> IsMorning(r[i].time) && r[i] in slots
    ensures forall i :: 0 <= i < |slots| && IsMorning(slots[i].time) ==> slots[i] in r
  {
    Filter(slots, IsMorningSlot)
  }

  function EveningSlots(slots: seq<TimeSlot>): (r: seq<TimeSlot>)
    ensures forall i :: 0 <= i < |r| ==> IsEvening(r[i].time) && r[i] in slots
    ensures forall i :: 0 <= i < |slots| && IsEvening(slots[i].time) ==> slots[i] in r
  {
    Filter(slots, IsEveningSlot)
  }

  /** On well-formed labels the two groups partition the slots: every slot
      lands in exactly one group, and the group sizes add up. */
  lemma {:induction false} MorningEveningPartition(slots: seq<TimeSlot>)
    requires forall i :: 0 <= i < |slots| ==> WellFormedLabel(slots[i].time)
    ensures |MorningSlots(slots)| + |EveningSlots(slots)| == |slots|
    ensures forall x :: x in slots ==> (x in MorningSlots(slots) <==> x !in EveningSlots(slots))
  {
    if slots != [] {
      MorningEveningComplement(slots[0].time);
      MorningEveningPartition(slots[1..]);
    }
    forall x | x in slots
      ensures x in MorningSlots(slots) <==> x !in EveningSlots(slots)
    {
      var k :| 0 <= k < |slots| && slots[k] == x;
      MorningEveningComplement(slots[k].time);
      if x in MorningSlots(slots) {
        var m :| 0 <= m < |MorningSlots(slots)| && MorningSlots(slots)[m] == x;
      }
      if x in EveningSlots(slots) {
        var e :| 0 <= e < |EveningSlots(slots)| && EveningSlots(slots)[e] == x;
      }
    }
  }

  /** How the split treats a catalog entry: morning exactly when it is AM or
      its written hour is below 6, so the 12 o'clock PM entries are evening. */
  lemma ClockSplit(c: ClockTime)
    requires ValidClock(c)
    ensures IsMorning(Format(c)) <==> !c.pm || c.hour < 6
    ensures IsEvening(Format(c)) <==> !IsMorning(Format(c))
  {
    FormatReading(c);
    MorningEveningComplement(Format(c));
  }

  /** The in-person midday block splits with its four 12 o'clock labels in
      the evening group and its four 1 o'clock labels in the morning group. */
  lemma MiddaySplit()
    ensures forall i :: 0 <= i < 4 ==> IsEvening(Labels(MiddayTimes)[i])
    ensures forall i :: 4 <= i < 8 ==> IsMorning(Labels(MiddayTimes)[i])
  {
    var labels := Labels(MiddayTimes);
    forall i | 0 <= i < 8
      ensures IsMorning(labels[i]) <==> MiddayTimes[i].hour < 6
      ensures IsEvening(labels[i]) <==> MiddayTimes[i].hour >= 6
    {
      var c := MiddayTimes[i];
      assert c.pm && ValidClock(c);
      assert labels[i] == Format(c);
      ClockSplit(c);
    }
  }
}

=== FILE: lifecycle.dfy ===
/**
 The page's booking list and the pending queue over time: a run of booking
 saves (from the booking page) and consumes (from the admin panel), with the
 accounting that ties the pending queue to the booking list, and the
 end-to-end scenarios of one patient's booking.
 */
module Lifecycle {
  import opened Records
  import opened Text
  import opened Availability
  import opened BookingPage
  import opened AdminPanel
  import opened Catalog

  /** One write to the collections: a save (which may fail at a storage
      write) or the admin marking the notification at `index` as sent. */
  datatype Action = Book(booking: Booking, writeFails: bool) | Consume(index: int)

  /** The page's booking list and the pending queue. */
  datatype Stores = Stores(store: seq<Booking>, queue: seq<Notification>)

  function Apply(s: Stores, a: Action): Stores
  {
    match a
    case Book(b, fails) =>
      var saved := SaveBooking(s.store, s.queue, b, fails);
      Stores(saved.store, saved.queue)
    case Consume(i) => Stores(s.store, MarkSent(s.queue, i))
  }

  function Run(s: Stores, actions: seq<Action>): Stores
    decreases |actions|
  {
    if actions == [] then s else Run(Apply(s, actions[0]), actions[1..])
  }

  function Saves(actions: seq<Action>): nat
  {
    if actions == [] then 0 else (if actions[0].Book? then 1 else 0) + Saves(actions[1..])
  }

  function Delivered(actions: seq<Action>): nat
  {
    if actions == [] then 0
    else (if actions[0].Book? && !actions[0].writeFails then 1 else 0) + Delivered(actions[1..])
  }

  function Consumes(actions: seq<Action>): nat
  {
    if actions == [] then 0 else (if actions[0].Consume? then 1 else 0) + Consumes(actions[1..])
  }

  /** Bookings are never removed: every save appends one, and the earlier
      store survives as a prefix. */
  lemma {:induction false} StoreOnlyGrows(s: Stores, actions: seq<Action>)
    ensures |Run(s, actions).store| == |s.store| + Saves(actions)
    ensures Run(s, actions).store[..|s.store|] == s.store
    decreases |actions|
  {
    if actions != [] {
      var s' := Apply(s, actions[0]);
      StoreOnlyGrows(s', actions[1..]);
      assert s'.store[..|s.store|] == s.store;
    }
  }

  /** Queue accounting: the queue gains one entry per successful save and
      loses at most one per consume (none when the index is out of range,
      for instance on an empty queue). */
  lemma {:induction false} QueueAccounting(s: Stores, actions: seq<Action>)
    ensures |Run(s, actions).queue| <= |s.queue| + Delivered(actions)
    ensures |Run(s, actions).queue| + Consumes(actions) >= |s.queue| + Delivered(actions)
    decreases |actions|
  {
    if actions != [] {
      var a := actions[0];
      if a.Consume? && 0 <= a.index < |s.queue| {
        MarkSentRemovesOne(s.queue, a.index);
      }
      QueueAccounting(Apply(s, a), actions[1..]);
    }
  }

  /** The dashboard's pending counter never exceeds its total counter when
      it did not at the start: each notification is enqueued after its
      booking and consumes only shrink the queue. */
  lemma {:induction false} PendingWithinTotal(s: Stores, actions: seq<Action>)
    requires |s.queue| <= |s.store|
    ensures |Run(s, actions).queue| <= |Run(s, actions).store|
    decreases |actions|
  {
    if actions != [] {
      var a := actions[0];
      if a.Consume? && 0 <= a.index < |s.queue| {
        MarkSentRemovesOne(s.queue, a.index);
      }
      PendingWithinTotal(Apply(s, a), actions[1..]);
    }
  }

  // ---------------------------------------------------------------------------
  // Scenarios

  /** A consultation type's bookings never block the other type: with only
      bookings of the other type stored, Continue from the datetime step
      always reaches the contact step. */
  lemma OtherTypeNeverBlocks(f: Flow, now: int, writeFails: bool)
    requires f.step == DateTime && f.time != ""
    requires forall i :: 0 <= i < |f.store| ==> f.store[i].consultationType != f.ctype
    ensures Continue(f, now, writeFails).step == Contact
  {
  }

  /** A phone written as two digit groups around a space stores the groups
      joined. */
  lemma SpacedGroupsLink(a: string, b: string)
    requires AllDigits(a) && AllDigits(b)
    ensures EnqueueLink(a + " " + b) == WhatsappPrefix + a + b
  {
    assert a + " " + b == a + (" " + b);
    DigitsOnlyConcat(a, " " + b);
    DigitsOnlyConcat(" ", b);
    DigitsOnlyFixpoint(a);
    DigitsOnlyFixpoint(b);
    assert DigitsOnly(" ") == [];
  }

  lemma SpacedPhoneLink()
    ensures EnqueueLink("98765 43210") == "https://wa.me/919876543210"
  {
    var a, b := "98765", "43210";
    assert AllDigits(a) && AllDigits(b);
    SpacedGroupsLink(a, b);
    assert a + " " + b == "98765 43210";
    assert WhatsappPrefix + a + b == "https://wa.me/919876543210";
  }

  /** One patient books a video slot into empty collections: one booking, one
      notification, and the stored link carries the phone's ten digits. */
  lemma FirstBookingScenario(now: int)
    ensures var f0 := Start(Video, "2025-03-03", 1, [], []);
      var f1 := EnterContact(SelectTime(f0, "10:00 AM"), "Asha", "98765 43210");
      var f2 := Continue(f1, now, false);
      var f3 := Continue(f2, now, false);
      && f2.step == Contact
      && f3.step == Confirmation
      && f3.store == [Booking("2025-03-03", "10:00 AM", "Asha", "98765 43210", Video, Some(now))]
      && |f3.queue| == 1
      && f3.queue[0].whatsappLink == "https://wa.me/919876543210"
  {
    SpacedPhoneLink();
  }

  /** That booking takes exactly one of the day's twenty video slots. */
  lemma FirstBookingTakesOneSlot(now: int)
    ensures SlotsCount(Video, 1, "2025-03-03",
      [Booking("2025-03-03", "10:00 AM", "Asha", "98765 43210", Video, Some(now))]) == 19
  {
    var b := Booking("2025-03-03", "10:00 AM", "Asha", "98765 43210", Video, Some(now));
    SlotsCountAfterAppend(Video, 1, "2025-03-03", [], b);
    assert [] + [b] == [b];
    TenIsVideoSlot(1);
  }

  lemma TenIsVideoSlot(weekday: int)
    ensures "10:00 AM" in CandidateSlots(Video, weekday)
  {
    assert CandidateSlots(Video, weekday)[2] == Format(ClockTime(10, 0, false));
  }

  /** A phone the form accepts (non-empty, so Confirm is enabled) but that
      has no digits, such as "n/a", still enqueues a notification, with the
      bare prefix as its link, while the admin views show the no-phone
      notice. */
  lemma NoDigitPhoneScenario(now: int, phone: string)
    requires phone != ""
    requires DigitsOnly(phone) == []
    ensures var f := EnterContact(SelectTime(Start(Video, "2025-03-03", 1, [], []), "10:00 AM"), "Asha", phone);
      var g := Continue(Continue(f, now, false), now, false);
      && g.step == Confirmation
      && |g.queue| == 1
      && g.queue[0].whatsappLink == "https://wa.me/91"
      && ContactFor(g.store[0].patientPhone) == NoPhoneNotice
  {
  }
}

=== FILE: records.dfy ===
/**
 The records shared by the booking page and the admin panel: stored bookings,
 pending notifications and the ephemeral slot candidates the booking page
 renders. Absent string fields of a stored record are modelled as "", because
 every read of them goes through `x || ''` or a truthiness test, for which an
 absent and an empty string behave alike.
 */
module Records {

  /** The usual Some/None wrapper. */
  datatype Option<+T> = None | Some(value: T)

  /** The partition key of the slot namespace: a video slot and an in-person
      slot with the same date and time never conflict. */
  datatype ConsultationType = Video | InPerson

  /** One stored booking. `date` is the `yyyy-MM-dd` key, `time` a catalog
      label such as "09:00 AM". The admin panel treats `timestamp` as optional. */
  datatype Booking = Booking(
    date: string,
    time: string,
    patientName: string,
    patientPhone: string,
    consultationType: ConsultationType,
    timestamp: Option<int>)

  /** One pending notification: a denormalized copy of the booking's fields
      plus the prerendered contact link. */
  datatype Notification = Notification(
    date: string,
    time: string,
    patientName: string,
    patientPhone: string,
    consultationType: ConsultationType,
    timestamp: Option<int>,
    whatsappLink: string)

  /** A slot candidate; `available` is computed on every render, never stored. */
  datatype TimeSlot = TimeSlot(time: string, available: bool)

  /** The timestamp with a missing one counted as 0, as the recency sort reads it. */
  function TimestampOrZero(b: Booking): (t: int)
    ensures b.timestamp == Some(t) || (b.timestamp == None && t == 0)
  {
    match b.timestamp
    case Some(t) => t
    case None => 0
  }
}

=== FILE: sequences.dfy ===
/**
 Generic sequence operations shared by both pages: `Array.prototype.filter`
 and a stable sort driven by a JavaScript-style comparator (negative: first
 argument goes first; zero: keep input order).
 */
module Sequences {

  /** `s.filter(p)`. */
  function Filter<T>(s: seq<T>, p: T -> bool): (r: seq<T>)
    ensures |r| <= |s|
    ensures forall i :: 0 <= i < |r| ==> r[i] in s && p(r[i])
    ensures forall i :: 0 <= i < |s| && p(s[i]) ==> s[i] in r
  {
    if s == [] then []
    else (if p(s[0]) then [s[0]] else []) + Filter(s[1..], p)
  }

  /** An element survives the filter exactly when it occurs and passes. */
  lemma FilterMembers<T>(s: seq<T>, p: T -> bool)
    ensures forall x :: x in Filter(s, p) <==> x in s && p(x)
  {
    var r := Filter(s, p);
    forall x
      ensures x in r <==> x in s && p(x)
    {
      if x in r {
        var k :| 0 <= k < |r| && r[k] == x;
      }
      if x in s && p(x) {
        var k :| 0 <= k < |s| && s[k] == x;
      }
    }
  }

  /** Filtering distributes over concatenation, so the kept elements keep
      their relative order. */
  lemma {:induction false} FilterAppend<T>(a: seq<T>, b: seq<T>, p: T -> bool)
    ensures Filter(a + b, p) == Filter(a, p) + Filter(b, p)
    decreases |a|
  {
    if a == [] {
      assert a + b == b;
    } else {
      assert (a + b)[1..] == a[1..] + b;
      FilterAppend(a[1..], b, p);
    }
  }

  /** A filter keeps everything exactly when every element passes. */
  lemma {:induction false} FilterKeepsAll<T>(s: seq<T>, p: T -> bool)
    ensures Filter(s, p) == s <==> forall i :: 0 <= i < |s| ==> p(s[i])
    decreases |s|
  {
    if s != [] {
      FilterKeepsAll(s[1..], p);
      if !p(s[0]) {
        assert |Filter(s, p)| < |s|;
      } else if !(forall i :: 0 <= i < |s| ==> p(s[i])) {
        var k :| 0 <= k < |s| && !p(s[k]);
        assert !p(s[1..][k - 1]);
      }
    }
  }

  /** `s.slice(0, n)`. */
  function Take<T>(s: seq<T>, n: nat): (r: seq<T>)
    ensures |r| == if |s| <= n then |s| else n
    ensures r == s[..|r|]
    ensures multiset(r) <= multiset(s)
  {
    if |s| <= n then s
    else
      assert s == s[..n] + s[n..];
      s[..n]
  }

  /** Inserts `x`, which preceded every element of `s` in the input, in
      front of the first element it does not compare after. */
  function Insert<T>(x: T, s: seq<T>, cmp: (T, T) -> int): (r: seq<T>)
    ensures multiset(r) == multiset(s) + multiset{x}
    ensures |r| == |s| + 1
    ensures forall i :: 0 <= i < |r| ==> r[i] == x || r[i] in s
  {
    if s == [] then [x]
    else if cmp(x, s[0]) <= 0 then [x] + s
    else
      assert s == [s[0]] + s[1..];
      [s[0]] + Insert(x, s[1..], cmp)
  }

  /** A stable insertion sort with comparator `cmp`. It stands for the
      engine's `Array.prototype.sort`, which is stable; for a comparator
      that is not a consistent order the engine's result is unspecified and
      only the permutation property is claimed. */
  function SortWith<T>(xs: seq<T>, cmp: (T, T) -> int): (r: seq<T>)
    ensures multiset(r) == multiset(xs)
    ensures |r| == |xs|
  {
    if xs == [] then []
    else
      assert xs == [xs[0]] + xs[1..];
      Insert(xs[0], SortWith(xs[1..], cmp), cmp)
  }

  predicate SortedBy<T>(s: seq<T>, key: T -> int)
  {
    forall i, j :: 0 <= i < j < |s| ==> key(s[i]) <= key(s[j])
  }

  /** The comparator orders the elements of `xs` as `key` does. */
  predicate AgreesOn<T>(cmp: (T, T) -> int, key: T -> int, xs: seq<T>)
  {
    forall i, j :: 0 <= i < |xs| && 0 <= j < |xs| ==> (cmp(xs[i], xs[j]) <= 0 <==> key(xs[i]) <= key(xs[j]))
  }

  lemma {:induction false} InsertSorted<T>(x: T, s: seq<T>, cmp: (T, T) -> int, key: T -> int)
    requires SortedBy(s, key)
    requires forall i :: 0 <= i < |s| ==> (cmp(x, s[i]) <= 0 <==> key(x) <= key(s[i]))
    ensures SortedBy(Insert(x, s, cmp), key)
    decreases |s|
  {
    if s == [] {
    } else if cmp(x, s[0]) <= 0 {
      ConsSorted([x] + s, key);
    } else {
      var tail := s[1..];
      forall i | 0 <= i < |tail|
        ensures cmp(x, tail[i]) <= 0 <==> key(x) <= key(tail[i])
      {
        assert tail[i] == s[i + 1];
      }
      InsertSorted(x, tail, cmp, key);
      var ins := Insert(x, tail, cmp);
      forall k | 0 <= k < |ins|
        ensures key(s[0]) <= key(ins[k])
      {
        if ins[k] != x {
          var m :| 0 <= m < |tail| && tail[m] == ins[k];
          assert tail[m] == s[m + 1];
        }
      }
      ConsSorted([s[0]] + ins, key);
    }
  }

  /** A list is sorted when its head is below every later element and its
      tail is sorted. */
  lemma ConsSorted<T>(r: seq<T>, key: T -> int)
    requires r != []
    requires SortedBy(r[1..], key)
    requires forall k :: 1 <= k < |r| ==> key(r[0]) <= key(r[k])
    ensures SortedBy(r, key)
  {
    forall i, j | 0 <= i < j < |r|
      ensures key(r[i]) <= key(r[j])
    {
      if i > 0 {
        assert r[i] == r[1..][i - 1] && r[j] == r[1..][j - 1];
      }
    }
  }

  /** When the comparator agrees with an integer key on the input, the
      result is sorted by that key. */
  lemma {:induction false} SortWithSorted<T>(xs: seq<T>, cmp: (T, T) -> int, key: T -> int)
    requires AgreesOn(cmp, key, xs)
    ensures SortedBy(SortWith(xs, cmp), key)
    decreases |xs|
  {
    if xs != [] {
      var tail := xs[1..];
      assert AgreesOn(cmp, key, tail) by {
        forall i, j | 0 <= i < |tail| && 0 <= j < |tail|
          ensures cmp(tail[i], tail[j]) <= 0 <==> key(tail[i]) <= key(tail[j])
        {
          assert tail[i] == xs[i + 1] && tail[j] == xs[j + 1];
        }
      }
      SortWithSorted(tail, cmp, key);
      var sorted := SortWith(tail, cmp);
      forall i | 0 <= i < |sorted|
        ensures cmp(xs[0], sorted[i]) <= 0 <==> key(xs[0]) <= key(sorted[i])
      {
        assert sorted[i] in multiset(tail);
        var k :| 0 <= k < |tail| && tail[k] == sorted[i];
        assert xs[k + 1] == sorted[i];
      }
      InsertSorted(xs[0], sorted, cmp, key);
    }
  }

  /** Membership survives sorting. */
  lemma SortWithMembers<T>(xs: seq<T>, cmp: (T, T) -> int)
    ensures forall x :: x in SortWith(xs, cmp) <==> x in xs
  {
    forall x
      ensures x in SortWith(xs, cmp) <==> x in xs
    {
      assert x in SortWith(xs, cmp) <==> x in multiset(SortWith(xs, cmp));
      assert x in xs <==> x in multiset(xs);
    }
  }
}

=== FILE: text.dfy ===
/**
 The string primitives the two pages rely on: the `\D` digit strip,
 `String.prototype.includes`, `split(':')[0]` and a decimal `parseInt`.
 */
module Text {
  import opened Records

  /** The `\d` class of a JavaScript regular expression: ASCII 0-9 only. */
  predicate IsDigit(c: char)
  {
    '0' <= c <= '9'
  }

  predicate AllDigits(s: string)
  {
    forall i :: 0 <= i < |s| ==> IsDigit(s[i])
  }

  /** `s.replace(/\D/g, '')`: every non-digit character removed, the digits
      kept in order. */
  function DigitsOnly(s: string): (r: string)
    ensures AllDigits(r)
    ensures |r| <= |s|
    ensures forall c :: c in r <==> c in s && IsDigit(c)
  {
    if s == [] then []
    else (if IsDigit(s[0]) then [s[0]] else []) + DigitsOnly(s[1..])
  }

  /** Stripping distributes over concatenation. */
  lemma {:induction false} DigitsOnlyConcat(a: string, b: string)
    ensures DigitsOnly(a + b) == DigitsOnly(a) + DigitsOnly(b)
    decreases |a|
  {
    if a == [] {
      assert a + b == b;
    } else {
      assert (a + b)[0] == a[0];
      assert (a + b)[1..] == a[1..] + b;
      DigitsOnlyConcat(a[1..], b);
    }
  }

  /** A string is left unchanged by the strip exactly when it is all digits;
      in particular the strip is idempotent. */
  lemma {:induction false} DigitsOnlyFixpoint(s: string)
    ensures DigitsOnly(s) == s <==> AllDigits(s)
    decreases |s|
  {
    if s != [] {
      DigitsOnlyFixpoint(s[1..]);
      if !IsDigit(s[0]) {
        assert |DigitsOnly(s)| < |s|;
      } else if AllDigits(s) {
        assert AllDigits(s[1..]);
      } else {
        var k :| 0 <= k < |s| && !IsDigit(s[k]);
        assert !IsDigit(s[1..][k - 1]);
      }
    }
  }

  lemma DigitsOnlyIdempotent(s: string)
    ensures DigitsOnly(DigitsOnly(s)) == DigitsOnly(s)
  {
    DigitsOnlyFixpoint(DigitsOnly(s));
  }

  /** `s.includes(pat)`: some window of `s` equals `pat`. */
  predicate Contains(s: string, pat: string)
    ensures Contains(s, pat) ==> |pat| <= |s|
  {
    exists i :: 0 <= i <= |s| - |pat| && s[i..][..|pat|] == pat
  }

  /** `s.split(':')[0]`: everything before the first colon, or all of `s`. */
  function FirstField(s: string): (r: string)
    ensures |r| <= |s| && r == s[..|r|]
    ensures ':' !in r
    ensures |r| < |s| ==> s[|r|] == ':'
  {
    if s == [] || s[0] == ':' then [] else [s[0]] + FirstField(s[1..])
  }

  /** The longest prefix of `s` made of digits. */
  function LeadingDigits(s: string): (r: string)
    ensures |r| <= |s| && r == s[..|r|]
    ensures AllDigits(r)
    ensures |r| < |s| ==> !IsDigit(s[|r|])
  {
    if s == [] || !IsDigit(s[0]) then [] else [s[0]] + LeadingDigits(s[1..])
  }

  /** The decimal value of a digit string. */
  function DecimalValue(d: string): nat
    requires AllDigits(d)
  {
    if d == [] then 0
    else 10 * DecimalValue(d[..|d| - 1]) + (d[|d| - 1] as int - '0' as int)
  }

  /** `parseInt(s)` with radix 10 on a string that starts with its digits:
      None stands for NaN. */
  function ParseLeadingInt(s: string): (r: Option<nat>)
    ensures r.None? <==> s == [] || !IsDigit(s[0])
  {
    var d := LeadingDigits(s);
    if d == [] then None else Some(DecimalValue(d))
  }
}
